=== FILE: README.md ===
# Self-hosting adapter for Nancy: a Dafny model

This project models the decision logic of `SBRW.Nancy.Hosting.Self`, the adapter that serves a Nancy application from the operating system's HTTP listener. The adapter does the following:

- It computes the listener prefixes from the configured base URIs and can rewrite `localhost` to a wildcard.
- It starts the listener. If the bind is refused with access denied, it either raises an error that tells the operator which `netsh http add urlacl` commands to run, or it creates those namespace reservations itself and binds once more.
- It maps each incoming request to the base URI that serves it, splitting the URL into base path and application-local path.
- It copies the framework's response back onto the listener response, choosing between transport framing and a declared length.

The model is purely functional:

- URIs are records whose path segments, authority and printed form are taken as given.
- Ordinal case-insensitive comparison is ASCII case folding.
- A null value is `Option.None`.
- A thrown exception is `Result.Failure` carrying an `Exception` value.
- Everything the operating system answers is an input: the bind outcomes, the elevated runner's outcomes, the account lookup and the current identity.

Starting the host returns the trace of the calls it made, the listener it left behind and the error it raised. The contracts state that trace.

Modules, one per source file or concern:

| module | models |
|---|---|
| `Wrappers` | `Option`, `Result` |
| `Text` | case folding, substring search and replace-all, `TrimEnd`, blank strings |
| `Numbers` | decimal rendering and 64-bit integer parsing |
| `Dictionaries` | header dictionaries as ordered tables with case-insensitive keys |
| `Exceptions` | the exceptions the adapter raises or lets through |
| `UriExtensions` | `UriExtensions.cs` |
| `IgnoredHeaders` | `IgnoredHeaders.cs` |
| `NetSh` | `NetSh.cs` |
| `ReservationFailure` | `AutomaticUrlReservationCreationFailureException.cs` |
| `UrlReservations` | `UrlReservations.cs` |
| `NancyHost` | the host class: prefixes, base URI choice, user, start and stop |
| `RequestConversion` | `ConvertRequestToNancyRequest`, `GetExpectedRequestLength` and the protocol string |
| `ResponseConversion` | `ConvertNancyResponseToResponse` and both output paths |

The model follows the code as written where it looks odd:

- `GetUser` consults the current Windows identity only when Unix is detected, and it yields `""` otherwise.
- A `Content-Length` request header with several values raises an error instead of yielding 0.
- The `localhost` rewrite replaces every occurrence of the substring in the printed prefix.
- A declared response length is set as the response's length even when the body has another size; the output stream then refuses the body.

## Model

| member | source | states |
|---|---|---|
| Text.ReplaceAllLeavesNoOccurrence | SBRW.Nancy.Hosting.Self/NancyHost.cs:260 | after `Replace` with a replacement that shares no character with the pattern, the pattern no longer occurs anywhere in the result |
| Text.ReplaceAllShrinks | SBRW.Nancy.Hosting.Self/NancyHost.cs:260 | with a shorter replacement the result is never longer, and it is strictly shorter exactly when the pattern occurred |
| Text.ReplaceAllAtFirstOccurrence | SBRW.Nancy.Hosting.Self/NancyHost.cs:260 | `Replace` copies the text before the leftmost occurrence, puts the replacement in its place, and goes on with the rest after it |
| Text.ReplaceAll | SBRW.Nancy.Hosting.Self/NancyHost.cs:260 | ordinal `string.Replace`, left to right without overlaps; its meaning is stated by `Text.ReplaceAllAtFirstOccurrence` and `Text.ReplaceAllWithoutOccurrence` |
| Text.ReplaceAllWithoutOccurrence | SBRW.Nancy.Hosting.Self/NancyHost.cs:260 | `Replace` leaves a string without the pattern unchanged |
| Text.ReplaceAllCopiesPrefix | SBRW.Nancy.Hosting.Self/NancyHost.cs:260 | up to the first character that comes from a replacement, `Replace` copies its input |
| Text.ReplacementCreatesNoOccurrence | SBRW.Nancy.Hosting.Self/NancyHost.cs:260 | a replacement sharing no character with the pattern starts no occurrence in front of an occurrence-free rest |
| Text.EqualsIgnoreCaseIffFold | SBRW.Nancy.Hosting.Self/UriExtensions.cs:54 | ordinal ignore-case equality holds exactly when the ASCII-folded strings are equal |
| Text.TrimEnd | SBRW.Nancy.Hosting.Self/NancyHost.cs:284 | `TrimEnd('/')` yields a prefix of the input that does not end in `/`, and only `/` characters were removed |
| Numbers.ParseRenderedInt64 | SBRW.Nancy.Hosting.Self/NancyHost.cs:424 | every decimal number in the 64-bit range parses back to itself, with or without a minus sign |
| Numbers.ParseRejectsNonDigit | SBRW.Nancy.Hosting.Self/NancyHost.cs:424 | a non-digit after the first character makes the parse fail |
| Numbers.DigitsValueOfNatToString | SBRW.Nancy.Hosting.Self/NancyHost.cs:305 | rendering a version number and reading its digits back gives the number |
| Numbers.NatToStringInjective | SBRW.Nancy.Hosting.Self/NancyHost.cs:305 | distinct numbers render differently |
| Numbers.NatToString | SBRW.Nancy.Hosting.Self/NancyHost.cs:305 | the invariant-culture rendering of a number is a non-empty run of decimal digits |
| Numbers.ParseInt64 | SBRW.Nancy.Hosting.Self/NancyHost.cs:424 | a successful parse yields a value in the range of a 64-bit `long` |
| Dictionaries.Lookup | SBRW.Nancy.Hosting.Self/NancyHost.cs:388 | `TryGetValue` on a case-insensitive dictionary: absent exactly when no key equals the name ignoring case, else the value of the first such key |
| UriExtensions.AppendSlashIfNeeded | SBRW.Nancy.Hosting.Self/UriExtensions.cs:42-50 | the result ends in `/`, and it is the input itself or the input plus one `/`, the input alone when it already ends in `/` |
| UriExtensions.SegmentEquals | SBRW.Nancy.Hosting.Self/UriExtensions.cs:52-55 | both segments padded with a trailing `/`, then compared ignoring case; its meaning is stated by `UriExtensions.SegmentEqualsIgnoresOneSlash` and `UriExtensions.SegmentEqualsIsEquivalence` |
| UriExtensions.SegmentEqualsIgnoresOneSlash | SBRW.Nancy.Hosting.Self/UriExtensions.cs:52-55 | two segments are equal exactly when, with one trailing slash dropped from each, they agree ignoring case |
| UriExtensions.SegmentEqualsIsEquivalence | SBRW.Nancy.Hosting.Self/UriExtensions.cs:52-55 | segment equality is reflexive, symmetric and transitive |
| UriExtensions.SegmentEqualsExample | SBRW.Nancy.Hosting.Self/UriExtensions.cs:42-55 | `"App"` equals `"app/"` |
| UriExtensions.SegmentEqualsEmpty | SBRW.Nancy.Hosting.Self/UriExtensions.cs:44-46 | a segment equals the padding `""` exactly when it is `""` or `"/"` |
| UriExtensions.ZipCompare | SBRW.Nancy.Hosting.Self/UriExtensions.cs:57-91 | the comparison applied to both sequences in step, the shorter padded with `""`; its meaning is stated by `UriExtensions.ZipComparePositional` |
| UriExtensions.ZipComparePositional | SBRW.Nancy.Hosting.Self/UriExtensions.cs:57-91 | the zipped comparison holds exactly when the comparison holds at every position up to the longer length, a missing element read as `""` |
| UriExtensions.IsCaseInsensitiveBaseOf | SBRW.Nancy.Hosting.Self/UriExtensions.cs:18-30 | matching authority and a zipped segment comparison; its meaning is stated by `UriExtensions.BaseOfBySegments` |
| UriExtensions.BaseOfBySegments | SBRW.Nancy.Hosting.Self/UriExtensions.cs:18-30 | a URI is a base of another exactly when the authorities match and every base segment is empty or equal to the request's segment at that position, a missing request segment read as `""` |
| UriExtensions.LongerRequestStillMatches | SBRW.Nancy.Hosting.Self/UriExtensions.cs:29 | request segments past the base's length never affect the result |
| UriExtensions.BaseSegmentBeyondRequest | SBRW.Nancy.Hosting.Self/UriExtensions.cs:29 | a base segment past the end of a matched request is `""` or `"/"` |
| UriExtensions.UnequalSegmentRejects | SBRW.Nancy.Hosting.Self/UriExtensions.cs:66-74 | a non-empty base segment unequal to the request's segment rejects the request |
| UriExtensions.AuthorityMismatchRejects | SBRW.Nancy.Hosting.Self/UriExtensions.cs:20-24 | a scheme, host or port mismatch rejects whatever the paths are |
| UriExtensions.LocalhostIgnoresHost | SBRW.Nancy.Hosting.Self/UriExtensions.cs:20 | when the base host is exactly `localhost`, the request's host never affects the result |
| UriExtensions.BaseOfItself | SBRW.Nancy.Hosting.Self/UriExtensions.cs:18-30 | every URI is a base of itself |
| UriExtensions.JoinAppend | SBRW.Nancy.Hosting.Self/UriExtensions.cs:128-138 | joining distributes over concatenation |
| UriExtensions.ZipFill | SBRW.Nancy.Hosting.Self/UriExtensions.cs:93-126 | the selector applied to both sequences in step, a missing element passed as null, non-null results kept; its meaning is stated by `UriExtensions.ZipFillKeepsSurvivors` and `UriExtensions.ZipFillThrowsOnLongerBase` |
| UriExtensions.ZipFillKeepsSurvivors | SBRW.Nancy.Hosting.Self/UriExtensions.cs:93-126 | when the base is not longer, the zipped fill yields, in order, the full URI's segments that lie past the base or differ from it |
| UriExtensions.ZipFillThrowsOnLongerBase | SBRW.Nancy.Hosting.Self/UriExtensions.cs:37-54 | when the base is longer, the selector dereferences the missing segment and a null reference error is raised |
| UriExtensions.MakeAppLocalPath | SBRW.Nancy.Hosting.Self/UriExtensions.cs:37-40 | `/` followed by the joined segments the zipped fill keeps; its meaning is stated by `UriExtensions.MakeAppLocalPathResult` and `UriExtensions.LocalPathStripsMatchedBase` |
| UriExtensions.MakeAppLocalPathResult | SBRW.Nancy.Hosting.Self/UriExtensions.cs:37-40 | the local path fails exactly when the base has more segments, with a null reference error; otherwise it is `/` followed by the kept segments |
| UriExtensions.KeptSegmentsAfterMatchedBase | SBRW.Nancy.Hosting.Self/UriExtensions.cs:39 | when every base segment equals the full URI's, the kept segments are exactly those past the base |
| UriExtensions.KeptMask | SBRW.Nancy.Hosting.Self/UriExtensions.cs:39 | one flag per full-URI segment, set exactly where the selector keeps that segment |
| UriExtensions.KeptSegmentsShift | SBRW.Nancy.Hosting.Self/UriExtensions.cs:102-121 | the segments kept from the whole walk are the first one, when kept, followed by those kept from the walk over both tails |
| UriExtensions.SelectNoneBefore | SBRW.Nancy.Hosting.Self/UriExtensions.cs:106-111 | positions whose value the selector drops contribute nothing |
| UriExtensions.SelectAfterPrefix | SBRW.Nancy.Hosting.Self/UriExtensions.cs:106-111 | after a dropped prefix, with every later value kept, the selection is the rest of the sequence |
| UriExtensions.SelectShift | SBRW.Nancy.Hosting.Self/UriExtensions.cs:102-121 | the values kept from a sequence are the head's, if kept, followed by those kept from its tail |
| UriExtensions.KeptMaskShift | SBRW.Nancy.Hosting.Self/UriExtensions.cs:113-121 | advancing both enumerators by one shifts which segments survive by one |
| UriExtensions.LocalPathStripsMatchedBase | SBRW.Nancy.Hosting.Self/UriExtensions.cs:37-40 | for a matched base the local path is `/` followed by the full URI's remaining segments |
| UriExtensions.LocalPathExample | SBRW.Nancy.Hosting.Self/UriExtensions.cs:37-40 | base `/app/` with `/app/foo/bar` gives `/foo/bar` |
| UriExtensions.AuthorityUri | SBRW.Nancy.Hosting.Self/NancyHost.cs:331 | `GetLeftPart(UriPartial.Authority)`: the request's scheme, host and port, with the root path and no query |
| UriExtensions.AuthorityUriMatches | SBRW.Nancy.Hosting.Self/NancyHost.cs:331 | the authority-only URI of a rooted request is a base of it, and the local path under it is the request's whole path |
| IgnoredHeaders.IsIgnored | SBRW.Nancy.Hosting.Self/IgnoredHeaders.cs:26-29 | membership of the folded name among the folded known headers; its meaning is stated by `IgnoredHeaders.IsIgnoredIffSomeKnownEquals` |
| IgnoredHeaders.IsIgnoredIffSomeKnownEquals | SBRW.Nancy.Hosting.Self/IgnoredHeaders.cs:12-29 | a name is ignored exactly when some known header equals it under the ordinal ignore-case comparer, i.e. the membership test of the comparer-built set |
| IgnoredHeaders.IgnoredInAnyCase | SBRW.Nancy.Hosting.Self/IgnoredHeaders.cs:12 | `Content-Length`, `Content-Type`, `Transfer-Encoding` and `KEEP-ALIVE` are ignored |
| IgnoredHeaders.OtherHeadersNotIgnored | SBRW.Nancy.Hosting.Self/IgnoredHeaders.cs:28 | `X-Custom` and `Set-Cookie` are not ignored |
| IgnoredHeaders.KnownHeadersAreFolded | SBRW.Nancy.Hosting.Self/IgnoredHeaders.cs:12-18 | the known names are already in lower case |
| NetSh.AddUrlAcl | SBRW.Nancy.Hosting.Self/NetSh.cs:24-36 | the result is true exactly when the elevated runner returned true, and false whenever it threw |
| NetSh.GetParameters | SBRW.Nancy.Hosting.Self/NetSh.cs:38-41 | the `http add urlacl` arguments with url and user inserted verbatim; its meaning is stated by `NetSh.ParametersRoundTrip` and `NetSh.ParametersNotEscaped` |
| NetSh.AddUrlAclCall | SBRW.Nancy.Hosting.Self/NetSh.cs:28-30 | the elevated runner's command and arguments; what a caller can rely on is stated by `NetSh.AddUrlAclCallReadBack` |
| NetSh.AddUrlAclCallReadBack | SBRW.Nancy.Hosting.Self/NetSh.cs:28-30 | the runner is asked to run `netsh`, and the url (when it has no double quote) and the user can be read back from the arguments it is given |
| NetSh.ParametersRoundTrip | SBRW.Nancy.Hosting.Self/NetSh.cs:38-41 | for a URL without a double quote, the url and user can be read back from the arguments |
| NetSh.ParametersNotEscaped | SBRW.Nancy.Hosting.Self/NetSh.cs:40 | embedded quotes are not escaped, so two different url/user pairs produce the same arguments |
| NetSh.IndexOfQuote | SBRW.Nancy.Hosting.Self/NetSh.cs:40 | finds the first double quote, or none exists |
| ReservationFailure.AutomaticUrlReservationCreationFailure.Message | SBRW.Nancy.Hosting.Self/AutomaticUrlReservationCreationFailureException.cs:33-54 | the preamble lines followed by the command lines, each terminated; its meaning is stated by `ReservationFailure.MessageLines` |
| ReservationFailure.MessageLines | SBRW.Nancy.Hosting.Self/AutomaticUrlReservationCreationFailureException.cs:33-54 | the message is the fixed preamble, then exactly one `netsh` command line per prefix, in order, each terminated |
| ReservationFailure.MessageWithoutPrefixes | SBRW.Nancy.Hosting.Self/AutomaticUrlReservationCreationFailureException.cs:37-52 | with no prefixes the message is the preamble alone |
| ReservationFailure.SplitAppendedLines | SBRW.Nancy.Hosting.Self/AutomaticUrlReservationCreationFailureException.cs:46-50 | lines written one after another split back into the same lines |
| ReservationFailure.SplitLineThenRest | SBRW.Nancy.Hosting.Self/AutomaticUrlReservationCreationFailureException.cs:46-50 | a line without a line feed, written with its terminator, splits off as the first line |
| ReservationFailure.CommandLineHasNoLineFeed | SBRW.Nancy.Hosting.Self/AutomaticUrlReservationCreationFailureException.cs:48-49 | a command line breaks no line unless the prefix or user does |
| ReservationFailure.AutomaticUrlReservationCreationFailure.CommandLines | SBRW.Nancy.Hosting.Self/AutomaticUrlReservationCreationFailureException.cs:46-50 | one `netsh` command per stored prefix, in order, all for the stored user |
| UrlReservations.GetEveryoneAccountName | SBRW.Nancy.Hosting.Self/UrlReservations.cs:59-80 | the translated account name off Unix when the lookup yields one; the literal `Everyone` on Unix, without an account, or when the lookup throws |
| UrlReservations.Default | SBRW.Nancy.Hosting.Self/UrlReservations.cs:85-89 | no automatic creation, and the user is the everyone account |
| NancyHost.Prefix | SBRW.Nancy.Hosting.Self/NancyHost.cs:256-261 | the printed base URI, unchanged unless the rewrite is on and the host has no dot; after a rewrite no `localhost` remains; the prefix differs from the printed URI exactly when a rewrite applied to text containing `localhost`; what takes the place of each `localhost` is stated by `NancyHost.PrefixReplacesLocalhost` |
| NancyHost.PrefixReplacesLocalhost | SBRW.Nancy.Hosting.Self/NancyHost.cs:256-261 | under the rewrite, the printed text before the first `localhost` is kept, that `localhost` becomes the wildcard, and the rest of the text is rewritten the same way |
| NancyHost.PrefixWithOneLocalhost | SBRW.Nancy.Hosting.Self/NancyHost.cs:256-261 | under the rewrite, a printed URI with a single `localhost` becomes the same text with the wildcard in its place |
| NancyHost.PrefixExample | SBRW.Nancy.Hosting.Self/NancyHost.cs:256-261 | with the rewrite on, `http://localhost:8080/` listens on `http://+:8080/` by default, and on `http://*:8080/` under the weak wildcard |
| NancyHost.GetPrefixes | SBRW.Nancy.Hosting.Self/NancyHost.cs:252-264 | one prefix per base URI, in order |
| NancyHost.Wildcard | SBRW.Nancy.Hosting.Self/NancyHost.cs:260 | the wildcard is `*` or `+` and shares no character with `localhost` |
| NancyHost.FirstBaseIndex | SBRW.Nancy.Hosting.Self/NancyHost.cs:319 | the position of a matching base URI before which none matches, or none when no base URI matches |
| NancyHost.GetBaseUri | SBRW.Nancy.Hosting.Self/NancyHost.cs:317-332 | a matching configured base URI when there is one; otherwise the authority-only URI if fallback is allowed; none exactly when nothing matches and fallback is off |
| NancyHost.EarliestMatchWins | SBRW.Nancy.Hosting.Self/NancyHost.cs:319 | the first matching base URI in declaration order is the one chosen |
| NancyHost.GetUser | SBRW.Nancy.Hosting.Self/NancyHost.cs:228-238 | a non-blank configured user wins; otherwise the current identity when Unix is detected, failing when the identity cannot be read, and `""` when it is not |
| NancyHost.DefaultReservationsUser | SBRW.Nancy.Hosting.Self/NancyHost.cs:230-231 | with default reservations the user is the everyone account |
| NancyHost.DefaultReservationsUseEveryone | SBRW.Nancy.Hosting.Self/NancyHost.cs:228-238 | with default reservations and no translated account name (on Unix, or when the lookup finds nothing or throws), the user is `Everyone` whatever the platform answers |
| NancyHost.TryStartListener | SBRW.Nancy.Hosting.Self/NancyHost.cs:186-211 | a fresh listener over the prefixes: listening exactly on a successful bind, `false` exactly on access denied (5), the listener error for any other code |
| NancyHost.AddReservationsFromStopsAtFailure | SBRW.Nancy.Hosting.Self/NancyHost.cs:217-225 | success means every remaining prefix was reserved; failure means the last run failed and every earlier one succeeded |
| NancyHost.AddReservationsFrom | SBRW.Nancy.Hosting.Self/NancyHost.cs:217-225 | the runs made are `netsh` reservations of consecutive prefixes from the starting one, at least one unless no prefix remained |
| NancyHost.TryAddUrlReservations | SBRW.Nancy.Hosting.Self/NancyHost.cs:213-226 | one `netsh` reservation per prefix, in order, stopping at the first failure; true exactly when every reservation succeeded |
| NancyHost.TryAddUrlReservationsStopsAtFailure | SBRW.Nancy.Hosting.Self/NancyHost.cs:217-225 | on failure, the last `netsh` run made is the one that failed and every earlier run succeeded |
| NancyHost.StartListener | SBRW.Nancy.Hosting.Self/NancyHost.cs:163-184 | the first call is a bind over all prefixes, the listener left behind is over those prefixes, and it listens exactly when no error is raised; each branch is stated by `NancyHost.StartWithoutRecovery`, `NancyHost.StartWithoutAutomaticReservations`, `NancyHost.StartWithAutomaticReservations` and `NancyHost.StartSucceeds` |
| NancyHost.StartSucceeds | SBRW.Nancy.Hosting.Self/NancyHost.cs:163-184 | the host ends up listening exactly when it raises no error, that is when the first bind succeeds, or when it is denied, creation is automatic, the user is known, every reservation succeeds and the retry binds |
| NancyHost.StartWithoutRecovery | SBRW.Nancy.Hosting.Self/NancyHost.cs:163-210 | success on the first bind makes no reservation call, and an error other than access denied propagates after the single bind |
| NancyHost.StartWithoutAutomaticReservations | SBRW.Nancy.Hosting.Self/NancyHost.cs:170-173 | without automatic creation, access denied raises the reservation failure carrying all prefixes and the user |
| NancyHost.StartWithAutomaticReservations | SBRW.Nancy.Hosting.Self/NancyHost.cs:175-183 | with access denied and automatic creation on: a user that cannot be resolved ends the start after the first bind; a failed reservation ends it with the bind and the reservation runs so far and "Unable to configure namespace reservation"; otherwise a second bind follows, and a retry refused with access denied raises "Unable to start listener" while any other retry error propagates |
| NancyHost.StartBindsOnceOrTwice | SBRW.Nancy.Hosting.Self/NancyHost.cs:163-184 | the bind is attempted first, and once or twice in all |
| NancyHost.StartRunsOnlyNetsh | SBRW.Nancy.Hosting.Self/NancyHost.cs:163-226 | every other call is a `netsh` reservation run, at most one per base URI |
| NancyHost.RetryFollowsAllReservations | SBRW.Nancy.Hosting.Self/NancyHost.cs:175-183 | a second bind comes only after every prefix was reserved, in order, and it is the last call |
| NancyHost.CountStartsAppend | SBRW.Nancy.Hosting.Self/NancyHost.cs:163-184 | bind attempts in a concatenated trace add up |
| NancyHost.Stop | SBRW.Nancy.Hosting.Self/NancyHost.cs:243-250 | a listening listener is stopped and the stop flag raised; otherwise nothing changes; afterwards nothing listens |
| NancyHost.StopIsIdempotent | SBRW.Nancy.Hosting.Self/NancyHost.cs:243-250 | stopping twice is stopping once |
| NancyHost.StopAfterStart | SBRW.Nancy.Hosting.Self/NancyHost.cs:243-250 | stopping after a failed start changes nothing |
| RequestConversion.GetExpectedRequestLength | SBRW.Nancy.Hosting.Self/NancyHost.cs:405-427 | an error exactly when the header has several values; otherwise a 64-bit number; a single value that parses is returned as parsed, and a non-zero result is always such a parse |
| RequestConversion.ExpectedLengthOfRenderedValue | SBRW.Nancy.Hosting.Self/NancyHost.cs:424-426 | a single numeric value, negative ones included, is returned unchanged |
| RequestConversion.ExpectedLengthDefaultsToZero | SBRW.Nancy.Hosting.Self/NancyHost.cs:407-422 | no headers, no header, no value or an unparseable value give 0 |
| RequestConversion.ProtocolString | SBRW.Nancy.Hosting.Self/NancyHost.cs:303-305 | the protocol string starts with `HTTP/` |
| RequestConversion.ProtocolStringExamples | SBRW.Nancy.Hosting.Self/NancyHost.cs:301-305 | versions 1.1, 1.0 and 2.0 print as `HTTP/1.1`, `HTTP/1.0` and `HTTP/2` |
| RequestConversion.ProtocolStringInjective | SBRW.Nancy.Hosting.Self/NancyHost.cs:303-305 | two versions print the same exactly when they are equal or both have major version 2 |
| RequestConversion.DottedSplit | SBRW.Nancy.Hosting.Self/NancyHost.cs:305 | `major.minor` splits back uniquely |
| RequestConversion.ConvertRequestToNancyRequest | SBRW.Nancy.Hosting.Self/NancyHost.cs:266-315 | fails with the "unable to locate base URI" error when no base serves the request, succeeds exactly when a base serves it, the length header is valid and the base is not longer; the port is absent exactly for the default port, the certificate is passed only when enabled, the base path is the base's path with trailing slashes trimmed |
| RequestConversion.ConvertedPathFollowsBase | SBRW.Nancy.Hosting.Self/NancyHost.cs:284-285 | under the first matching base the local path is what follows the base's segments |
| RequestConversion.ConvertedPathUnderFallback | SBRW.Nancy.Hosting.Self/NancyHost.cs:279-331 | under the authority fallback the base path is empty and the local path is the whole path |
| ResponseConversion.CopiedHeaders | SBRW.Nancy.Hosting.Self/NancyHost.cs:336-342 | at most one write per response header, and every write adds a header whose name is not ignored |
| ResponseConversion.CopiedHeadersExactly | SBRW.Nancy.Hosting.Self/NancyHost.cs:336-342 | exactly the non-ignored headers are added: every added header is one of the response's, and every non-ignored one is added |
| ResponseConversion.CopiedHeadersAppend | SBRW.Nancy.Hosting.Self/NancyHost.cs:336-342 | copying distributes over concatenation, so header order is kept |
| ResponseConversion.CopiedHeadersSkipIgnored | SBRW.Nancy.Hosting.Self/NancyHost.cs:338 | `Content-Length` and `transfer-encoding` are never copied |
| ResponseConversion.CookieWrites | SBRW.Nancy.Hosting.Self/NancyHost.cs:344-347 | one appended `Set-Cookie` per cookie, in order |
| ResponseConversion.WriteHeaders | SBRW.Nancy.Hosting.Self/NancyHost.cs:336-357 | headers, cookies, reason phrase and content type written before the status; what is written is stated by the first three ensures of `ResponseConversion.ConvertNancyResponseToResponse` |
| ResponseConversion.OutputWithDefaultTransferEncoding | SBRW.Nancy.Hosting.Self/NancyHost.cs:371-377 | the body is appended to the output and nothing else changes |
| ResponseConversion.OutputWithContentLength | SBRW.Nancy.Hosting.Self/NancyHost.cs:379-403 | a declared length that does not parse throws with the response untouched; a negative one throws after chunking was switched off and nothing else changed; one other than the body's size is set and then the output stream throws, after writing the body only when it was shorter; otherwise unchunked, with the body's size as length, and the body written |
| ResponseConversion.DeclaredLengthIsTrusted | SBRW.Nancy.Hosting.Self/NancyHost.cs:388-402 | a declared length becomes the response's length whatever the body's size, and the body goes through without error exactly when it has that size |
| ResponseConversion.ConvertNancyResponseToResponse | SBRW.Nancy.Hosting.Self/NancyHost.cs:334-369 | headers then cookies are written, reason phrase and content type only when present; a status outside 100..999 then throws with status, framing and output untouched; a valid status is set, chunked mode writes the body and sets no length, length mode is `OutputWithContentLength` on the updated response |
| ResponseConversion.BodyReachesOutput | SBRW.Nancy.Hosting.Self/NancyHost.cs:359-403 | without an error the body reaches the output in either mode; with header names, header values and reason phrase taken as valid, an error happens exactly for a status outside 100..999, or in length mode for a declared length that is not the body's size; the body is then not written, except when it was shorter than the declared length |

## Left out

- The accept loop in `Start` (NancyHost.cs:134-161) is concurrent: a semaphore bounds pending accepts, and the permit is released when an accept completes, before the request is processed. It is not modelled.
- `Process` (NancyHost.cs:429-450) hands the converted request to the asynchronous engine and routes every failure to the unhandled-exception callback. The engine is opaque, so only the two conversions around it are modelled.
- The constructors and `Dispose` are not modelled. The constructors (NancyHost.cs:87-95) store the base URIs and the bootstrapper, replace a null configuration with a default one, initialise the bootstrapper and take its engine. `Dispose` (NancyHost.cs:125-129) calls `Stop` and then disposes the bootstrapper. The bootstrapper and engine are framework code outside this model, so the host state here starts from a configuration and base URIs. `FileSystemRootPathProvider.cs` is not part of this model.
- .NET `Uri` and `UriBuilder` are not modelled. Parsing, unescaping, `Segments`, `GetLeftPart`, `UriBuilder.ToString` and `Uri.ToString` are taken as given inputs: the segments, the authority and the printed text. Only the authority URI's segments are derived.
- Uri.Compare with `UriFormat.Unescaped` is not modelled. The model compares scheme and host ignoring ASCII case, and port numbers for equality.
- Case-insensitive comparison is ASCII case folding. Non-ASCII case mappings of `OrdinalIgnoreCase` are left out.
- `IsNullOrWhiteSpace` knows the ASCII white space plus U+0085 and U+00A0. Other Unicode space separators are left out.
- The header dictionaries are assumed to compare keys ignoring case. The dictionaries come from code that is not part of this model.
- Numbers.ParseRejectsNonDigit: holds of the model's sign-and-digits form only. `long.TryParse` with `NumberStyles.Any` (NancyHost.cs:424) accepts strings with a non-digit after the first character, such as `"1 "`, `"1,000"`, `"5.0"`, `"1e3"`, `"5-"` and `"(1)"`.
- Numbers.ParseInt64: accepts an optional leading sign followed by ASCII digits within the 64-bit range. `long.TryParse` with `NumberStyles.Any` (NancyHost.cs:424) also accepts leading and trailing white space, a trailing sign, parentheses for a negative value, thousands separators, a currency symbol, a decimal point followed only by zeros (`"5.0"` is 5) and an exponent (`"1e3"` is 1000); it does not accept hexadecimal. `Convert.ToInt64` (NancyHost.cs:389-391) uses `NumberStyles.Integer`, which adds only leading and trailing white space to the model's form; it raises `FormatException` for bad text and `OverflowException` out of range, which the model merges into one `NumberFormat` error. `Convert.ToInt64` also reads the sign symbols of the current culture, where the model knows only `-` and `+`, and it maps a null value to 0; header values are never null in the model.
- `Environment.NewLine` is fixed to `"\r\n"`.
- `GetUser` and `GetEveryoneAccountName` follow the build with `NETFRAMEWORK || NETSTANDARD2_0 || NET5_0_OR_GREATER && WINDOWS` (NancyHost.cs:232-237, UrlReservations.cs:22-40 and 63-72). The other build never reads the identity or looks up the account: it is the model's case `isUnix = false` for `GetUser` and the case with no account for `GetEveryoneAccountName`.
- The "unable to locate base URI" error (NancyHost.cs:273) prints the request URL with `Uri.ToString`. The model appends the URI's `text`, which for a request URL stands for that printing; the printing itself is taken as given.
- ReservationFailure.MessageLines: the line-by-line reading assumes that no prefix or user contains a line feed. The message text itself is modelled for all inputs.
- The body writer of a response is its resulting byte sequence. A writer that throws is left out.
- The output stream's check of the declared length follows the Windows listener: a write past the declared length is refused, and closing the stream short of it throws. The model merges both into one `BodyLengthMismatch` error; which of the two exceptions surfaces, and any partial write of a refused body, are left out.
- ResponseConversion.ConvertNancyResponseToResponse: header names and values, cookie values and the reason phrase are taken as valid. The listener's header collection and `StatusDescription` setter reject CR, LF and other forbidden characters with `ArgumentException` before the status is set (NancyHost.cs:336-352); the model writes them without error.
- ResponseConversion.BodyReachesOutput: its error cases hold under the same assumption; the setter failures of header names, header values and the reason phrase are not among them.
- ResponseConversion.WriteHeaders: an empty content type is recorded as `Some("")`, where the listener removes the header (NancyHost.cs:356).
- `HttpListenerResponse.AddHeader` and `Headers.Add` are recorded as writes in order. The listener's own merging of repeated names is left out.
- The elevated runner, the account lookup, the current Windows identity and the listener's bind are oracles. The elevated runner is `UacHelper.RunElevated`. The account lookup translates the world SID.
- `HostConfiguration` defaults and `RequestStream.FromStream` are not modelled. Their source is not part of this model, and `DisableRequestStreamSwitching` is left out.

=== FILE: Dictionaries.dfy ===
/** The header dictionaries the host reads: ordered (enumeration order is the
    order in which the host copies entries) and keyed by header name, looked
    up with ordinal ignore-case comparison. */
module Dictionaries {
  import opened Wrappers
  import opened Text

  type Table<V> = seq<(string, V)>

  /** Entry `i` is the first whose key matches `key` ignoring case. */
  predicate FirstKeyAt<V>(table: Table<V>, key: string, i: int)
  {
    0 <= i < |table| && EqualsIgnoreCase(table[i].0, key) &&
    forall j :: 0 <= j < i ==> !EqualsIgnoreCase(table[j].0, key)
  }

  /** `TryGetValue(key, out value)`. */
  function Lookup<V(==)>(table: Table<V>, key: string): (r: Option<V>)
    ensures r.None? <==> forall i :: 0 <= i < |table| ==> !EqualsIgnoreCase(table[i].0, key)
    ensures r.Some? ==> exists i :: FirstKeyAt(table, key, i) && table[i].1 == r.value
    decreases |table|
  {
    if |table| == 0 then None
    else if EqualsIgnoreCase(table[0].0, key) then Some(table[0].1)
    else
      var r := Lookup(table[1..], key);
      if r.Some? then
        var i :| FirstKeyAt(table[1..], key, i) && table[1..][i].1 == r.value;
        assert FirstKeyAt(table, key, i + 1);
        r
      else r
  }
}

=== FILE: Exceptions.dfy ===
/** The exceptions the host's decision logic can raise, as values. */
module Exceptions {
  import ReservationFailure

  datatype Exception =
    | NullReference
      /** `InvalidOperationException` with its message. */
    | InvalidOperation(message: string)
      /** `FormatException` or `OverflowException` from number conversion. */
    | NumberFormat(text: string)
      /** `HttpListenerException` with its native error code. */
    | HttpListenerFailure(errorCode: int)
      /** Asking the platform for the current identity is not supported. */
    | PlatformNotSupported
      /** `ProtocolViolationException`: a response status outside 100..999. */
    | ProtocolViolation(statusCode: int)
      /** `ArgumentOutOfRangeException`: a negative response content length. */
    | ArgumentOutOfRange(value: int)
      /** The listener's output stream refusing a body whose size differs
          from the declared response length: `ProtocolViolationException`
          from a write past it, `InvalidOperationException` from closing the
          stream short of it. */
    | BodyLengthMismatch(declared: int, size: int)
    | ReservationCreationFailure(failure: ReservationFailure.AutomaticUrlReservationCreationFailure)
}

=== FILE: IgnoredHeaders.dfy ===
/** The response headers the transport owns: they are never copied from the
    engine's response, because the host sets them itself. */
module IgnoredHeaders {
  import opened Text

  /** Initialised once and never written afterwards. */
  const KnownHeaders: set<string> := {"content-length", "content-type", "transfer-encoding", "keep-alive"}

  /** Membership in the set of known names: the set is built with the ordinal
      ignore-case comparer, so a name is a member when its folded form is one
      of the (already lower-case) known names. */
  predicate IsIgnored(headerName: string)
  {
    Fold(headerName) in KnownHeaders
  }

  predicate HasNoUpper(s: string)
  {
    forall i :: 0 <= i < |s| ==> !('A' <= s[i] <= 'Z')
  }

  lemma FoldWithoutUpper(s: string)
    requires HasNoUpper(s)
    ensures Fold(s) == s
  {
  }

  lemma KnownHeadersAreFolded()
    ensures Fold("content-length") == "content-length" && Fold("content-type") == "content-type"
    ensures Fold("transfer-encoding") == "transfer-encoding" && Fold("keep-alive") == "keep-alive"
  {
    FoldWithoutUpper("content-length");
    FoldWithoutUpper("content-type");
    FoldWithoutUpper("transfer-encoding");
    FoldWithoutUpper("keep-alive");
  }

  /** Membership under the ignore-case comparer: a name is ignored exactly
      when some known header equals it, ignoring case. */
  lemma IsIgnoredIffSomeKnownEquals(headerName: string)
    ensures IsIgnored(headerName) <==> exists h | h in KnownHeaders :: EqualsIgnoreCase(h, headerName)
  {
    KnownHeadersAreFolded();
    forall h | h in KnownHeaders
      ensures EqualsIgnoreCase(h, headerName) <==> h == Fold(headerName)
    {
      EqualsIgnoreCaseIffFold(h, headerName);
    }
  }

  /** The comparison ignores case: the usual capitalisations are ignored. */
  lemma IgnoredInAnyCase()
    ensures IsIgnored("Content-Length") && IsIgnored("KEEP-ALIVE")
    ensures IsIgnored("Content-Type") && IsIgnored("Transfer-Encoding")
  {
    assert Fold("Content-Length") == "content-length";
    assert Fold("KEEP-ALIVE") == "keep-alive";
    assert Fold("Content-Type") == "content-type";
    assert Fold("Transfer-Encoding") == "transfer-encoding";
  }

  /** Any other header, such as a custom one or `Set-Cookie`, is copied. */
  lemma OtherHeadersNotIgnored()
    ensures !IsIgnored("X-Custom") && !IsIgnored("Set-Cookie")
  {
    assert Fold("Set-Cookie")[0] == 's';
  }
}

=== FILE: NancyHost.dfy ===
/** The host's own decisions: the listener prefixes, which base URI serves a
    request, which user reservations are made for, the start sequence with
    its recovery through namespace reservations, and stopping. */
module NancyHost {
  import opened Wrappers
  import opened Text
  import opened Exceptions
  import opened UriExtensions
  import NetSh
  import ReservationFailure
  import UrlReservations

  /** The native error code of a bind refused for lack of a reservation. */
  const AccessDenied: int := 5

  const Localhost: string := "localhost"

  datatype HostConfiguration = HostConfiguration(
    rewriteLocalhost: bool,
    useWeakWildcard: bool,
    allowAuthorityFallback: bool,
    allowChunkedEncoding: bool,
    enableClientCertificates: bool,
    urlReservations: UrlReservations.UrlReservations)

  /** The bind token that stands for "any host". */
  function Wildcard(config: HostConfiguration): (r: string)
    ensures r == "*" || r == "+"
    ensures Disjoint(r, Localhost)
  {
    if config.useWeakWildcard then "*" else "+"
  }

  /** The rewrite applies to hosts without a dot. */
  predicate RewritesHost(config: HostConfiguration, baseUri: Uri)
  {
    config.rewriteLocalhost && '.' !in baseUri.host
  }

  /** The listener prefix for one base URI: its printed form, with every
      "localhost" in it replaced by the wildcard when the rewrite applies. */
  function Prefix(baseUri: Uri, config: HostConfiguration): (r: string)
    ensures !RewritesHost(config, baseUri) ==> r == baseUri.text
    ensures RewritesHost(config, baseUri) ==> !Contains(r, Localhost)
    ensures r == baseUri.text <==> !RewritesHost(config, baseUri) || !Contains(baseUri.text, Localhost)
  {
    if RewritesHost(config, baseUri) then
      var w := Wildcard(config);
      ReplaceAllShrinks(baseUri.text, Localhost, w);
      ReplaceAllLeavesNoOccurrence(baseUri.text, Localhost, w);
      if Contains(baseUri.text, Localhost) then ReplaceAll(baseUri.text, Localhost, w)
      else
        ReplaceAllWithoutOccurrence(baseUri.text, Localhost, w);
        ReplaceAll(baseUri.text, Localhost, w)
    else baseUri.text
  }

  /** Under the rewrite, the text before the first `localhost` is kept, that
      `localhost` becomes the wildcard, and the rest is rewritten in turn. */
  lemma PrefixReplacesLocalhost(baseUri: Uri, config: HostConfiguration, i: nat)
    requires RewritesHost(config, baseUri)
    requires FirstOccurrence(baseUri.text, Localhost, i)
    ensures Prefix(baseUri, config) ==
      baseUri.text[..i] + Wildcard(config) + Prefix(baseUri.(text := baseUri.text[i + |Localhost|..]), config)
  {
    ReplaceAllAtFirstOccurrence(baseUri.text, Localhost, Wildcard(config), i);
  }

  /** No proper suffix of `localhost` starts like it: its second `l` is
      followed by `h`, not `o`. */
  lemma LocalhostHasNoBorder(k: nat)
    requires 0 < k < |Localhost|
    ensures Localhost[k] != 'l' || (k + 1 < |Localhost| && Localhost[k + 1] != 'o')
  {
    if k == 4 {
      assert Localhost[5] == 'h';
    }
  }

  /** An occurrence of `localhost` cannot start inside the text before
      another one: no proper suffix of it is a prefix of it. */
  lemma NoOccurrenceAcrossLocalhost(before: string, rest: string, j: nat)
    requires !Contains(before, Localhost) && j < |before|
    requires |rest| >= |Localhost| && rest[..|Localhost|] == Localhost
    ensures !OccursAt(before + rest, Localhost, j)
  {
    var text := before + rest;
    if j + |Localhost| <= |before| {
      assert before[j..j + |Localhost|] == text[j..j + |Localhost|];
      assert !OccursAt(before, Localhost, j);
    } else if j + |Localhost| <= |text| {
      var k := |before| - j;
      LocalhostHasNoBorder(k);
      assert text[j..j + |Localhost|][k] == rest[0];
      if Localhost[k] == 'l' {
        assert text[j..j + |Localhost|][k + 1] == rest[1];
      }
    }
  }

  /** A printed base with a single `localhost` listens on the same text with
      the wildcard in its place. */
  lemma PrefixWithOneLocalhost(baseUri: Uri, config: HostConfiguration, before: string, after: string)
    requires RewritesHost(config, baseUri)
    requires baseUri.text == before + Localhost + after
    requires !Contains(before, Localhost) && !Contains(after, Localhost)
    ensures Prefix(baseUri, config) == before + Wildcard(config) + after
  {
    var text := baseUri.text;
    var i := |before|;
    assert text[i..i + |Localhost|] == Localhost;
    forall j | 0 <= j < i ensures !OccursAt(text, Localhost, j) {
      assert text == before + (Localhost + after);
      NoOccurrenceAcrossLocalhost(before, Localhost + after, j);
    }
    ReplaceAllAtFirstOccurrence(text, Localhost, Wildcard(config), i);
    assert text[..i] == before && text[i + |Localhost|..] == after;
    ReplaceAllWithoutOccurrence(after, Localhost, Wildcard(config));
  }

  /** The printed base `http://localhost:8080/` listens on `http://+:8080/`,
      or on the same text with `*` under the weak wildcard. */
  lemma PrefixExample(baseUri: Uri, config: HostConfiguration)
    requires baseUri.host == Localhost && baseUri.text == "http://" + Localhost + ":8080/"
    requires config.rewriteLocalhost
    ensures Prefix(baseUri, config) == "http://" + Wildcard(config) + ":8080/"
    ensures !config.useWeakWildcard ==> Prefix(baseUri, config) == "http://" + "+" + ":8080/"
    ensures config.useWeakWildcard ==> Prefix(baseUri, config) == "http://" + "*" + ":8080/"
  {
    assert !Contains("http://", Localhost) && !Contains(":8080/", Localhost);
    PrefixWithOneLocalhost(baseUri, config, "http://", ":8080/");
  }

  /** One prefix per base URI, in order. */
  function GetPrefixes(baseUris: seq<Uri>, config: HostConfiguration): (r: seq<string>)
    ensures |r| == |baseUris|
    ensures forall i :: 0 <= i < |baseUris| ==> r[i] == Prefix(baseUris[i], config)
  {
    seq(|baseUris|, i requires 0 <= i < |baseUris| => Prefix(baseUris[i], config))
  }

  /** The position of the first configured base URI that is a base of the
      request. */
  function FirstBaseIndex(baseUris: seq<Uri>, url: Uri): (r: Option<nat>)
    ensures r.Some? ==> r.value < |baseUris| && IsCaseInsensitiveBaseOf(baseUris[r.value], url)
    ensures r.Some? ==> forall j :: 0 <= j < r.value ==> !IsCaseInsensitiveBaseOf(baseUris[j], url)
    ensures r.None? ==> forall j :: 0 <= j < |baseUris| ==> !IsCaseInsensitiveBaseOf(baseUris[j], url)
    decreases |baseUris|
  {
    if |baseUris| == 0 then None
    else if IsCaseInsensitiveBaseOf(baseUris[0], url) then Some(0)
    else
      match FirstBaseIndex(baseUris[1..], url)
      case None => None
      case Some(k) => Some(k + 1)
  }

  /** The base URI that serves a request: the first configured one that is a
      base of it; failing that, its authority alone when fallback is allowed;
      otherwise none. */
  function GetBaseUri(baseUris: seq<Uri>, config: HostConfiguration, url: Uri): (r: Option<Uri>)
    ensures r.None? <==>
      !config.allowAuthorityFallback && forall j :: 0 <= j < |baseUris| ==> !IsCaseInsensitiveBaseOf(baseUris[j], url)
    ensures (exists j :: 0 <= j < |baseUris| && IsCaseInsensitiveBaseOf(baseUris[j], url)) ==>
      exists i :: 0 <= i < |baseUris| && r == Some(baseUris[i]) && IsCaseInsensitiveBaseOf(baseUris[i], url)
    ensures (forall j :: 0 <= j < |baseUris| ==> !IsCaseInsensitiveBaseOf(baseUris[j], url)) && config.allowAuthorityFallback ==>
      r == Some(AuthorityUri(url))
  {
    match FirstBaseIndex(baseUris, url)
    case Some(i) => Some(baseUris[i])
    case None => if config.allowAuthorityFallback then Some(AuthorityUri(url)) else None
  }

  /** Earliest declared wins: a matching base URI is chosen whenever none
      declared before it matches. */
  lemma EarliestMatchWins(baseUris: seq<Uri>, config: HostConfiguration, url: Uri, i: nat)
    requires i < |baseUris| && IsCaseInsensitiveBaseOf(baseUris[i], url)
    requires forall j :: 0 <= j < i ==> !IsCaseInsensitiveBaseOf(baseUris[j], url)
    ensures GetBaseUri(baseUris, config, url) == Some(baseUris[i])
  {
    var k := FirstBaseIndex(baseUris, url);
    assert k.Some?;
    assert !(k.value < i) && !(i < k.value);
  }

  /** What the platform answers: whether it is Unix, and the current Windows
      identity's name, `None` when asking for it throws. */
  datatype Platform = Platform(isUnix: bool, currentIdentityName: Option<string>)

  /** The user reservations are made for: the configured user unless it is
      null or blank; otherwise the current identity when Unix is detected,
      and the empty string when it is not. */
  function GetUser(reservations: UrlReservations.UrlReservations, platform: Platform): (r: Result<string, Exception>)
    ensures !IsNullOrWhiteSpace(reservations.user) ==> r == Success(reservations.user.value)
    ensures IsNullOrWhiteSpace(reservations.user) && !platform.isUnix ==> r == Success("")
    ensures IsNullOrWhiteSpace(reservations.user) && platform.isUnix ==>
      (r.Success? <==> platform.currentIdentityName.Some?) &&
      (r.Success? ==> r.value == platform.currentIdentityName.value)
    ensures r.Failure? ==> r.error == PlatformNotSupported
  {
    if !IsNullOrWhiteSpace(reservations.user) then Success(reservations.user.value)
    else if platform.isUnix then
      match platform.currentIdentityName
      case Some(name) => Success(name)
      case None => Failure(PlatformNotSupported)
    else Success("")
  }

  /** With default reservations the user is the "everyone" account, whenever
      that name is not blank (the literal fallback never is). */
  lemma DefaultReservationsUser(isUnix: bool, lookup: UrlReservations.AccountLookup, platform: Platform)
    requires !IsNullOrWhiteSpace(Some(UrlReservations.GetEveryoneAccountName(isUnix, lookup)))
    ensures GetUser(UrlReservations.Default(isUnix, lookup), platform) ==
      Success(UrlReservations.GetEveryoneAccountName(isUnix, lookup))
  {
  }

  lemma EveryoneIsNotBlank()
    ensures !IsNullOrWhiteSpace(Some(UrlReservations.EveryoneAccountName))
  {
    assert UrlReservations.EveryoneAccountName[0] == 'E';
  }

  /** Without a translated account name, whether on Unix or because the
      lookup found nothing or threw, default reservations go to "Everyone"
      whatever the platform answers. */
  lemma DefaultReservationsUseEveryone(isUnix: bool, lookup: UrlReservations.AccountLookup, platform: Platform)
    ensures isUnix || !lookup.Translated? ==>
      GetUser(UrlReservations.Default(isUnix, lookup), platform) == Success("Everyone")
  {
    if isUnix || !lookup.Translated? {
      EveryoneIsNotBlank();
      DefaultReservationsUser(isUnix, lookup, platform);
    }
  }

  /** What one attempt to start a fresh listener did. */
  datatype BindOutcome = Bound | BindFailed(errorCode: int)

  datatype Listener = Listener(prefixes: seq<string>, isListening: bool)

  /** A call the host makes on the outside world while starting. */
  datatype HostCall = StartListening(prefixes: seq<string>) | RunElevated(call: NetSh.ElevatedCall)

  /** A fresh listener over `prefixes`: listening when the bind succeeds,
      `false` when it was refused with access denied, and the listener
      exception for any other error code. */
  function TryStartListener(prefixes: seq<string>, outcome: BindOutcome): (r: (Listener, Result<bool, Exception>))
    ensures r.0.prefixes == prefixes
    ensures r.0.isListening <==> r.1 == Success(true)
    ensures r.1 == Success(true) <==> outcome == Bound
    ensures r.1 == Success(false) <==> outcome == BindFailed(AccessDenied)
    ensures r.1.Failure? ==> outcome.BindFailed? && r.1.error == HttpListenerFailure(outcome.errorCode)
  {
    match outcome
    case Bound => (Listener(prefixes, true), Success(true))
    case BindFailed(code) =>
      (Listener(prefixes, false), if code == AccessDenied then Success(false) else Failure(HttpListenerFailure(code)))
  }

  /** Reservation of prefix `i` succeeded, given the outcome of the `i`-th
      elevated run. */
  predicate Reserved(prefixes: seq<string>, user: string, runs: nat -> NetSh.ElevatedOutcome, i: nat)
    requires i < |prefixes|
  {
    NetSh.AddUrlAcl(prefixes[i], user, runs(i))
  }

  /** Reserves `prefixes[k..]` in order and stops at the first failure; the
      outcome of the `i`-th elevated run is `runs(i)`. */
  function AddReservationsFrom(prefixes: seq<string>, user: string, runs: nat -> NetSh.ElevatedOutcome, k: nat): (r: (bool, seq<HostCall>))
    requires k <= |prefixes|
    ensures 0 < |r.1| <= |prefixes| - k || (r.0 && r.1 == [])
    ensures forall i :: 0 <= i < |r.1| ==> r.1[i] == RunElevated(NetSh.AddUrlAclCall(prefixes[k + i], user))
    decreases |prefixes| - k
  {
    if k == |prefixes| then (true, [])
    else
      var call := RunElevated(NetSh.AddUrlAclCall(prefixes[k], user));
      if !Reserved(prefixes, user, runs, k) then (false, [call])
      else
        var rest := AddReservationsFrom(prefixes, user, runs, k + 1);
        (rest.0, [call] + rest.1)
  }

  /** Reservation stops at the first failure: success means every remaining
      prefix was reserved; failure means the last run failed and all runs
      before it succeeded. */
  lemma {:induction false} AddReservationsFromStopsAtFailure(prefixes: seq<string>, user: string, runs: nat -> NetSh.ElevatedOutcome, k: nat)
    requires k <= |prefixes|
    ensures var r := AddReservationsFrom(prefixes, user, runs, k);
      && (r.0 ==> |r.1| == |prefixes| - k && forall j :: k <= j < |prefixes| ==> Reserved(prefixes, user, runs, j))
      && (!r.0 ==> |r.1| > 0 && !Reserved(prefixes, user, runs, k + |r.1| - 1))
      && (!r.0 ==> forall j :: k <= j < k + |r.1| - 1 ==> Reserved(prefixes, user, runs, j))
    decreases |prefixes| - k
  {
    if k < |prefixes| && Reserved(prefixes, user, runs, k) {
      AddReservationsFromStopsAtFailure(prefixes, user, runs, k + 1);
    }
  }

  /** Adds a reservation for every prefix, stopping at the first failure. */
  function TryAddUrlReservations(prefixes: seq<string>, user: string, runs: nat -> NetSh.ElevatedOutcome): (r: (bool, seq<HostCall>))
    ensures |r.1| <= |prefixes|
    ensures forall i :: 0 <= i < |r.1| ==> r.1[i] == RunElevated(NetSh.AddUrlAclCall(prefixes[i], user))
    ensures r.0 <==> forall i :: 0 <= i < |prefixes| ==> Reserved(prefixes, user, runs, i)
    ensures r.0 ==> |r.1| == |prefixes|
  {
    AddReservationsFromStopsAtFailure(prefixes, user, runs, 0);
    AddReservationsFrom(prefixes, user, runs, 0)
  }

  /** On failure, the last run made is the one that failed and every run
      before it succeeded. */
  lemma TryAddUrlReservationsStopsAtFailure(prefixes: seq<string>, user: string, runs: nat -> NetSh.ElevatedOutcome)
    ensures var r := TryAddUrlReservations(prefixes, user, runs);
      !r.0 ==> 0 < |r.1| && !Reserved(prefixes, user, runs, |r.1| - 1)
    ensures var r := TryAddUrlReservations(prefixes, user, runs);
      !r.0 ==> forall i :: 0 <= i < |r.1| - 1 ==> Reserved(prefixes, user, runs, i)
  {
    AddReservationsFromStopsAtFailure(prefixes, user, runs, 0);
  }

  /** Everything the outside world answers while the host starts. */
  datatype Environment = Environment(
    firstBind: BindOutcome,
    retryBind: BindOutcome,
    elevatedRuns: nat -> NetSh.ElevatedOutcome,
    platform: Platform)

  /** The calls made, the listener left behind, and the exception thrown, if any. */
  datatype StartResult = StartResult(calls: seq<HostCall>, listener: Listener, error: Option<Exception>)

  const ReservationNotConfigured: string := "Unable to configure namespace reservation"
  const ListenerNotStarted: string := "Unable to start listener"

  function CountStarts(calls: seq<HostCall>): nat
  {
    if |calls| == 0 then 0 else (if calls[0].StartListening? then 1 else 0) + CountStarts(calls[1..])
  }

  lemma {:induction false} CountStartsAppend(a: seq<HostCall>, b: seq<HostCall>)
    ensures CountStarts(a + b) == CountStarts(a) + CountStarts(b)
    decreases |a|
  {
    if |a| == 0 {
      assert a + b == b;
    } else {
      CountStartsAppend(a[1..], b);
      assert (a + b)[1..] == a[1..] + b;
    }
  }

  lemma {:induction false} NoStartsAmongRuns(calls: seq<HostCall>)
    requires forall i :: 0 <= i < |calls| ==> calls[i].RunElevated?
    ensures CountStarts(calls) == 0
    decreases |calls|
  {
    if |calls| > 0 {
      NoStartsAmongRuns(calls[1..]);
    }
  }

  /** The start of the host: bind; on access denied either fail with the
      reservation instructions, or reserve every prefix and bind once more. */
  function StartListener(baseUris: seq<Uri>, config: HostConfiguration, env: Environment): (r: StartResult)
    ensures |r.calls| >= 1 && r.calls[0] == StartListening(GetPrefixes(baseUris, config))
    ensures r.error.None? <==> r.listener.isListening
    ensures r.listener.prefixes == GetPrefixes(baseUris, config)
  {
    var prefixes := GetPrefixes(baseUris, config);
    var start := [StartListening(prefixes)];
    var (listener, first) := TryStartListener(prefixes, env.firstBind);
    match first
    case Failure(e) => StartResult(start, listener, Some(e))
    case Success(true) => StartResult(start, listener, None)
    case Success(false) =>
      match GetUser(config.urlReservations, env.platform)
      case Failure(e) => StartResult(start, listener, Some(e))
      case Success(user) =>
        if !config.urlReservations.createAutomatically then
          var failure := ReservationFailure.AutomaticUrlReservationCreationFailure(prefixes, user);
          StartResult(start, listener, Some(ReservationCreationFailure(failure)))
        else
          var (added, runs) := TryAddUrlReservations(prefixes, user, env.elevatedRuns);
          if !added then StartResult(start + runs, listener, Some(InvalidOperation(ReservationNotConfigured)))
          else
            var (listener', second) := TryStartListener(prefixes, env.retryBind);
            match second
            case Failure(e) => StartResult(start + runs + start, listener', Some(e))
            case Success(true) => StartResult(start + runs + start, listener', None)
            case Success(false) => StartResult(start + runs + start, listener', Some(InvalidOperation(ListenerNotStarted)))
  }

  /** The whole start succeeds exactly when the first bind does, or when it
      was refused with access denied, automatic creation is on, the user is
      known, every reservation succeeds and the single retry binds. */
  lemma StartSucceeds(baseUris: seq<Uri>, config: HostConfiguration, env: Environment)
    ensures var r := StartListener(baseUris, config, env);
      var prefixes := GetPrefixes(baseUris, config);
      var user := GetUser(config.urlReservations, env.platform);
      && (r.error.None? <==> r.listener.isListening)
      && (r.error.None? <==>
            || env.firstBind == Bound
            || (&& env.firstBind == BindFailed(AccessDenied)
                && config.urlReservations.createAutomatically
                && user.Success?
                && (forall i :: 0 <= i < |prefixes| ==> Reserved(prefixes, user.value, env.elevatedRuns, i))
                && env.retryBind == Bound))
  {
  }

  /** With access denied and automatic creation on, the start reserves the
      prefixes one by one. A failed reservation ends it with the trace so
      far and "unable to configure"; otherwise it binds once more, and a
      retry refused with access denied ends with "unable to start", while
      any other failure of the retry propagates. A user that cannot be
      resolved ends it after the first bind. */
  lemma StartWithAutomaticReservations(baseUris: seq<Uri>, config: HostConfiguration, env: Environment)
    requires env.firstBind == BindFailed(AccessDenied)
    requires config.urlReservations.createAutomatically
    ensures var r := StartListener(baseUris, config, env);
      var prefixes := GetPrefixes(baseUris, config);
      var user := GetUser(config.urlReservations, env.platform);
      && (user.Failure? ==> r.calls == [StartListening(prefixes)] && r.error == Some(user.error))
      && (user.Success? ==>
            var (added, runs) := TryAddUrlReservations(prefixes, user.value, env.elevatedRuns);
            && (!added ==>
                  && r.calls == [StartListening(prefixes)] + runs
                  && r.error == Some(InvalidOperation(ReservationNotConfigured))
                  && !r.listener.isListening)
            && (added ==> r.calls == [StartListening(prefixes)] + runs + [StartListening(prefixes)])
            && (added && env.retryBind == Bound ==> r.error.None?)
            && (added && env.retryBind == BindFailed(AccessDenied) ==>
                  r.error == Some(InvalidOperation(ListenerNotStarted)))
            && (added && env.retryBind.BindFailed? && env.retryBind.errorCode != AccessDenied ==>
                  r.error == Some(HttpListenerFailure(env.retryBind.errorCode))))
  {
  }

  /** Binding on the first try makes no reservation; any error other than
      access denied propagates unchanged after the one attempt. */
  lemma StartWithoutRecovery(baseUris: seq<Uri>, config: HostConfiguration, env: Environment)
    requires env.firstBind == Bound || (env.firstBind.BindFailed? && env.firstBind.errorCode != AccessDenied)
    ensures var r := StartListener(baseUris, config, env);
      && r.calls == [StartListening(GetPrefixes(baseUris, config))]
      && (env.firstBind == Bound ==> r.error.None?)
      && (env.firstBind.BindFailed? ==> r.error == Some(HttpListenerFailure(env.firstBind.errorCode)))
  {
  }

  /** Without automatic creation, access denied ends the start with the
      reservation failure carrying all prefixes and the resolved user. */
  lemma StartWithoutAutomaticReservations(baseUris: seq<Uri>, config: HostConfiguration, env: Environment)
    requires env.firstBind == BindFailed(AccessDenied) && !config.urlReservations.createAutomatically
    ensures var r := StartListener(baseUris, config, env);
      var user := GetUser(config.urlReservations, env.platform);
      && r.calls == [StartListening(GetPrefixes(baseUris, config))]
      && (user.Success? ==> r.error == Some(ReservationCreationFailure(
            ReservationFailure.AutomaticUrlReservationCreationFailure(GetPrefixes(baseUris, config), user.value))))
      && (user.Failure? ==> r.error == Some(user.error))
  {
  }

  /** The bind is attempted first, and once or twice in all. */
  lemma StartBindsOnceOrTwice(baseUris: seq<Uri>, config: HostConfiguration, env: Environment)
    ensures var r := StartListener(baseUris, config, env);
      && 1 <= CountStarts(r.calls) <= 2
      && r.calls[0] == StartListening(GetPrefixes(baseUris, config))
  {
    var prefixes := GetPrefixes(baseUris, config);
    var start := [StartListening(prefixes)];
    var user := GetUser(config.urlReservations, env.platform);
    if env.firstBind == BindFailed(AccessDenied) && config.urlReservations.createAutomatically && user.Success? {
      var runs := TryAddUrlReservations(prefixes, user.value, env.elevatedRuns).1;
      NoStartsAmongRuns(runs);
      CountStartsAppend(start, runs);
      CountStartsAppend(start + runs, start);
    } else {
      assert StartListener(baseUris, config, env).calls == start;
    }
  }

  /** Besides the binds, the start makes only `netsh` reservation runs, at
      most one per base URI. */
  lemma StartRunsOnlyNetsh(baseUris: seq<Uri>, config: HostConfiguration, env: Environment)
    ensures var r := StartListener(baseUris, config, env);
      && |r.calls| <= |baseUris| + 2
      && forall i :: 0 <= i < |r.calls| && r.calls[i].RunElevated? ==> r.calls[i].call.command == NetSh.NetshCommand
  {
    var prefixes := GetPrefixes(baseUris, config);
    var user := GetUser(config.urlReservations, env.platform);
    if env.firstBind == BindFailed(AccessDenied) && config.urlReservations.createAutomatically && user.Success? {
      var runs := TryAddUrlReservations(prefixes, user.value, env.elevatedRuns).1;
      assert forall i :: 0 <= i < |runs| ==> runs[i].call.command == NetSh.NetshCommand;
    }
  }

  /** A second bind happens only after every prefix was reserved, in order,
      for the resolved user. */
  lemma RetryFollowsAllReservations(baseUris: seq<Uri>, config: HostConfiguration, env: Environment)
    requires CountStarts(StartListener(baseUris, config, env).calls) == 2
    ensures var r := StartListener(baseUris, config, env);
      var prefixes := GetPrefixes(baseUris, config);
      var user := GetUser(config.urlReservations, env.platform);
      && env.firstBind == BindFailed(AccessDenied)
      && config.urlReservations.createAutomatically
      && user.Success?
      && |r.calls| == |prefixes| + 2
      && r.calls[|r.calls| - 1] == StartListening(prefixes)
      && forall i :: 0 <= i < |prefixes| ==>
           r.calls[i + 1] == RunElevated(NetSh.AddUrlAclCall(prefixes[i], user.value)) &&
           Reserved(prefixes, user.value, env.elevatedRuns, i)
  {
    var r := StartListener(baseUris, config, env);
    var prefixes := GetPrefixes(baseUris, config);
    var start := [StartListening(prefixes)];
    var user := GetUser(config.urlReservations, env.platform);
    if env.firstBind == BindFailed(AccessDenied) && config.urlReservations.createAutomatically && user.Success? {
      var (added, runs) := TryAddUrlReservations(prefixes, user.value, env.elevatedRuns);
      NoStartsAmongRuns(runs);
      CountStartsAppend(start, runs);
    }
  }

  /** The host's state between start and stop. */
  datatype HostState = HostState(listener: Option<Listener>, stopRequested: bool)

  /** The state after a start: the listener of the last attempt is kept. */
  function AfterStart(s: HostState, r: StartResult): HostState
  {
    s.(listener := Some(r.listener))
  }

  /** Stops a listening listener and raises the stop flag; does nothing
      otherwise. */
  function Stop(s: HostState): (r: HostState)
    ensures s.listener.Some? && s.listener.value.isListening ==>
      r.stopRequested && r.listener == Some(s.listener.value.(isListening := false))
    ensures !(s.listener.Some? && s.listener.value.isListening) ==> r == s
    ensures r.listener.None? || !r.listener.value.isListening
  {
    if s.listener.Some? && s.listener.value.isListening then
      HostState(Some(s.listener.value.(isListening := false)), true)
    else s
  }

  lemma StopIsIdempotent(s: HostState)
    ensures Stop(Stop(s)) == Stop(s)
  {
  }

  /** Stopping after a failed start does nothing; after a successful one it
      stops the listener the start left behind. */
  lemma StopAfterStart(s: HostState, baseUris: seq<Uri>, config: HostConfiguration, env: Environment)
    ensures var r := StartListener(baseUris, config, env);
      && (r.error.Some? ==> Stop(AfterStart(s, r)) == AfterStart(s, r))
      && (r.error.None? ==> Stop(AfterStart(s, r)) == HostState(Some(r.listener.(isListening := false)), true))
  {
    StartSucceeds(baseUris, config, env);
  }
}

=== FILE: NetSh.dfy ===
/** The `netsh` command line that creates a URL namespace reservation, and
    the reservation call made through the elevated runner. */
module NetSh {
  import opened Wrappers

  const NetshCommand: string := "netsh"
  const ArgumentsHead: string := "http add urlacl url=\""
  const ArgumentsMiddle: string := "\" user=\""
  const ArgumentsTail: string := "\""

  /** The arguments of `netsh` that reserve `url` for `user`; both are
      inserted verbatim, without quoting or escaping. */
  function GetParameters(url: string, user: string): string
  {
    ArgumentsHead + url + ArgumentsMiddle + user + ArgumentsTail
  }

  /** One invocation of the elevated runner: a command and its arguments. */
  datatype ElevatedCall = ElevatedCall(command: string, arguments: string)

  /** What the elevated runner did: it returned a boolean, or it threw. */
  datatype ElevatedOutcome = Exited(succeeded: bool) | Threw

  /** The runner invocation `AddUrlAcl(url, user)` makes. */
  function AddUrlAclCall(url: string, user: string): (c: ElevatedCall)
    ensures c.command == NetshCommand && c.arguments == GetParameters(url, user)
  {
    ElevatedCall(NetshCommand, GetParameters(url, user))
  }

  /** `AddUrlAcl`, given what the runner did with `AddUrlAclCall(url, user)`:
      the runner's answer, and false whenever it threw. */
  function AddUrlAcl(url: string, user: string, outcome: ElevatedOutcome): (r: bool)
    ensures r <==> outcome == Exited(true)
  {
    match outcome
    case Exited(b) => b
    case Threw => false
  }

  /** Position of the first double quote. */
  function IndexOfQuote(s: string): (r: Option<nat>)
    ensures r.Some? ==> r.value < |s| && s[r.value] == '"' && forall k :: 0 <= k < r.value ==> s[k] != '"'
    ensures r.None? ==> '"' !in s
    decreases |s|
  {
    if |s| == 0 then None
    else if s[0] == '"' then Some(0)
    else match IndexOfQuote(s[1..])
      case None => None
      case Some(k) => Some(k + 1)
  }

  /** Reads `url` and `user` back out of the arguments of a reservation. */
  function ParseParameters(args: string): Option<(string, string)>
  {
    if |args| < |ArgumentsHead| || args[..|ArgumentsHead|] != ArgumentsHead then None
    else
      var rest := args[|ArgumentsHead|..];
      match IndexOfQuote(rest)
      case None => None
      case Some(q) =>
        var tail := rest[q..];
        if |tail| < |ArgumentsMiddle| + 1 || tail[..|ArgumentsMiddle|] != ArgumentsMiddle || tail[|tail| - 1] != '"' then None
        else Some((rest[..q], tail[|ArgumentsMiddle|..|tail| - 1]))
  }

  lemma IndexOfQuoteAfter(a: string, b: string)
    requires '"' !in a && |b| > 0 && b[0] == '"'
    ensures IndexOfQuote(a + b) == Some(|a|)
  {
    var s := a + b;
    var r := IndexOfQuote(s);
    assert s[|a|] == '"';
    assert forall k :: 0 <= k < |a| ==> s[k] == a[k];
  }

  /** A url without a double quote and any user can be read back out of the
      reservation arguments. */
  lemma ParametersRoundTrip(url: string, user: string)
    requires '"' !in url
    ensures ParseParameters(GetParameters(url, user)) == Some((url, user))
  {
    var args := GetParameters(url, user);
    var tail := ArgumentsMiddle + user + ArgumentsTail;
    var rest := url + tail;
    assert args == ArgumentsHead + rest;
    assert args[..|ArgumentsHead|] == ArgumentsHead;
    assert args[|ArgumentsHead|..] == rest;
    IndexOfQuoteAfter(url, tail);
    assert rest[..|url|] == url && rest[|url|..] == tail;
    assert tail[..|ArgumentsMiddle|] == ArgumentsMiddle;
    assert tail[|ArgumentsMiddle|..|tail| - 1] == user;
  }

  /** What the runner is asked to do: run `netsh`, with arguments from which
      a url without a double quote, and the user, can be read back. */
  lemma AddUrlAclCallReadBack(url: string, user: string)
    ensures AddUrlAclCall(url, user).command == NetshCommand
    ensures '"' !in url ==> ParseParameters(AddUrlAclCall(url, user).arguments) == Some((url, user))
  {
    if '"' !in url {
      ParametersRoundTrip(url, user);
    }
  }

  /** Because nothing is escaped, a url with an embedded quote can produce the
      same arguments as a different url and user. */
  lemma ParametersNotEscaped()
    ensures GetParameters("a\" user=\"b", "c") == GetParameters("a", "b\" user=\"c")
  {
  }
}

=== FILE: Numbers.dfy ===
/** Decimal rendering of naturals (`Int32.ToString`, `Version.ToString`) and
    the parsing of 64-bit integers (`long.TryParse`, `Convert.ToInt64`). */
module Numbers {
  import opened Wrappers

  /** An octet of a body or of an output stream. */
  newtype byte = x: int | 0 <= x < 256

  const MinInt64: int := -0x8000_0000_0000_0000
  const MaxInt64: int := 0x7FFF_FFFF_FFFF_FFFF

  predicate IsDigit(c: char)
  {
    '0' <= c <= '9'
  }

  predicate AllDigits(s: string)
  {
    forall i :: 0 <= i < |s| ==> IsDigit(s[i])
  }

  function DigitChar(d: nat): (c: char)
    requires d < 10
    ensures IsDigit(c)
  {
    ('0' as int + d) as char
  }

  function DigitValue(c: char): nat
    requires IsDigit(c)
  {
    c as int - '0' as int
  }

  /** The value of a string of decimal digits, most significant first. */
  function DigitsValue(s: string): nat
    requires AllDigits(s)
    decreases |s|
  {
    if |s| == 0 then 0 else DigitsValue(s[..|s| - 1]) * 10 + DigitValue(s[|s| - 1])
  }

  /** The invariant-culture decimal rendering of a natural number. */
  function NatToString(n: nat): (r: string)
    ensures |r| > 0 && AllDigits(r)
    decreases n
  {
    if n < 10 then [DigitChar(n)] else NatToString(n / 10) + [DigitChar(n % 10)]
  }

  /** Parsing of a 64-bit integer: an optional sign followed by at least one
      decimal digit, the value in the range of `long`. */
  function ParseInt64(s: string): (r: Option<int>)
    ensures r.Some? ==> MinInt64 <= r.value <= MaxInt64
  {
    var signed := |s| > 0 && (s[0] == '-' || s[0] == '+');
    var digits := if signed then s[1..] else s;
    if |digits| == 0 || !AllDigits(digits) then None
    else
      var v: int := if signed && s[0] == '-' then -(DigitsValue(digits) as int) else DigitsValue(digits);
      if MinInt64 <= v <= MaxInt64 then Some(v) else None
  }

  /** Reading back a rendered natural gives the natural. */
  lemma {:induction false} DigitsValueOfNatToString(n: nat)
    ensures DigitsValue(NatToString(n)) == n
    decreases n
  {
    var s := NatToString(n);
    if n >= 10 {
      DigitsValueOfNatToString(n / 10);
      assert s[..|s| - 1] == NatToString(n / 10);
    }
  }

  /** `NatToString` is injective: distinct naturals have distinct renderings. */
  lemma NatToStringInjective(m: nat, n: nat)
    ensures NatToString(m) == NatToString(n) ==> m == n
  {
    DigitsValueOfNatToString(m);
    DigitsValueOfNatToString(n);
  }

  /** The parser accepts every rendering of an in-range natural, with or
      without a minus sign, and returns its value. */
  lemma ParseRenderedInt64(n: nat)
    ensures n <= MaxInt64 ==> ParseInt64(NatToString(n)) == Some(n)
    ensures n <= -MinInt64 ==> ParseInt64("-" + NatToString(n)) == Some(-(n as int))
  {
    DigitsValueOfNatToString(n);
    var s := NatToString(n);
    assert ("-" + s)[1..] == s;
  }

  /** Anything with a character other than a digit after the optional sign is
      rejected. */
  lemma ParseRejectsNonDigit(s: string, i: nat)
    requires 0 < i < |s| && !IsDigit(s[i])
    ensures ParseInt64(s) == None
  {
    var signed := |s| > 0 && (s[0] == '-' || s[0] == '+');
    var digits := if signed then s[1..] else s;
    assert !IsDigit(digits[if signed then i - 1 else i]);
  }
}

=== FILE: RequestConversion.dfy ===
/** Conversion of a listener request into a framework request: the base URI
    that serves it, the expected body length, the protocol string and the
    URL split into base path and local path. */
module RequestConversion {
  import opened Wrappers
  import opened Text
  import opened Numbers
  import opened Dictionaries
  import opened Exceptions
  import opened UriExtensions
  import opened NancyHost

  const ContentLength: string := "Content-Length"
  const MoreThanOneElement: string := "Sequence contains more than one element"
  const NoBaseUri: string := "Unable to locate base URI for request: "

  /** The values of the Content-Length header, when there are headers and
      the header is among them. */
  function ContentLengthValues(incomingHeaders: Option<Table<seq<string>>>): Option<seq<string>>
  {
    if incomingHeaders.None? then None else Lookup(incomingHeaders.value, ContentLength)
  }

  /** The body length announced by the request: 0 without headers, without
      a Content-Length header, without a value or with a value that does not
      parse; an error when the header has more than one value. */
  function GetExpectedRequestLength(incomingHeaders: Option<Table<seq<string>>>): (r: Result<int, Exception>)
    ensures r.Failure? <==> ContentLengthValues(incomingHeaders).Some? && |ContentLengthValues(incomingHeaders).value| > 1
    ensures r.Failure? ==> r.error == InvalidOperation(MoreThanOneElement)
    ensures r.Success? ==> MinInt64 <= r.value <= MaxInt64
    ensures r.Success? && r.value != 0 ==>
      var values := ContentLengthValues(incomingHeaders);
      values.Some? && |values.value| == 1 && ParseInt64(values.value[0]) == Some(r.value)
    ensures forall v, n :: ContentLengthValues(incomingHeaders) == Some([v]) && ParseInt64(v) == Some(n) ==>
      r == Success(n)
  {
    match ContentLengthValues(incomingHeaders)
    case None => Success(0)
    case Some(values) =>
      if |values| > 1 then Failure(InvalidOperation(MoreThanOneElement))
      else if |values| == 0 then Success(0)
      else
        match ParseInt64(values[0])
        case None => Success(0)
        case Some(n) => Success(n)
  }

  /** A single well-formed value is the expected length, negative ones
      included. */
  lemma ExpectedLengthOfRenderedValue(headers: Table<seq<string>>, n: nat)
    ensures n <= MaxInt64 && Lookup(headers, ContentLength) == Some([NatToString(n)]) ==>
      GetExpectedRequestLength(Some(headers)) == Success(n)
    ensures n <= -MinInt64 && Lookup(headers, ContentLength) == Some(["-" + NatToString(n)]) ==>
      GetExpectedRequestLength(Some(headers)) == Success(-(n as int))
  {
    ParseRenderedInt64(n);
  }

  /** Every way of not announcing a length yields 0. */
  lemma ExpectedLengthDefaultsToZero(incomingHeaders: Option<Table<seq<string>>>)
    requires || ContentLengthValues(incomingHeaders).None?
             || ContentLengthValues(incomingHeaders) == Some([])
             || (&& ContentLengthValues(incomingHeaders).Some?
                 && |ContentLengthValues(incomingHeaders).value| == 1
                 && ParseInt64(ContentLengthValues(incomingHeaders).value[0]).None?)
    ensures GetExpectedRequestLength(incomingHeaders) == Success(0)
  {
  }

  datatype ProtocolVersion = ProtocolVersion(major: nat, minor: nat)

  /** "HTTP/" followed by the version: the major number alone for HTTP/2,
      major and minor otherwise. */
  function ProtocolString(v: ProtocolVersion): (r: string)
    ensures |r| > 5 && r[..5] == "HTTP/"
  {
    "HTTP/" + (if v.major == 2 then NatToString(v.major) else NatToString(v.major) + "." + NatToString(v.minor))
  }

  lemma ProtocolStringExamples()
    ensures ProtocolString(ProtocolVersion(1, 1)) == "HTTP/1.1"
    ensures ProtocolString(ProtocolVersion(1, 0)) == "HTTP/1.0"
    ensures ProtocolString(ProtocolVersion(2, 0)) == "HTTP/2"
  {
  }

  /** Two digit runs joined by a dot split back uniquely. */
  lemma DottedSplit(x: string, y: string, x': string, y': string)
    requires AllDigits(x) && AllDigits(x')
    requires x + "." + y == x' + "." + y'
    ensures x == x' && y == y'
  {
    var s := x + "." + y;
    assert !IsDigit(s[|x|]);
    assert forall k :: 0 <= k < |x'| ==> s[k] == x'[k];
    assert |x'| <= |x|;
    assert !IsDigit(s[|x'|]);
    assert forall k :: 0 <= k < |x| ==> s[k] == x[k];
    assert |x| <= |x'|;
    assert x == s[..|x|] == x';
    assert y == s[|x| + 1..] == y';
  }

  /** Protocol strings tell versions apart, except that every HTTP/2 minor
      version prints the same. */
  lemma ProtocolStringInjective(a: ProtocolVersion, b: ProtocolVersion)
    ensures ProtocolString(a) == ProtocolString(b) <==> a == b || (a.major == 2 && b.major == 2)
  {
    var ra := ProtocolString(a);
    var rb := ProtocolString(b);
    var ta := ra[5..];
    var tb := rb[5..];
    assert ra == "HTTP/" + ta && rb == "HTTP/" + tb;
    assert a.major == 2 <==> |ta| == 1;
    assert b.major == 2 <==> |tb| == 1;
    if ra == rb && a.major != 2 && b.major != 2 {
      assert ta == tb;
      DottedSplit(NatToString(a.major), NatToString(a.minor), NatToString(b.major), NatToString(b.minor));
      NatToStringInjective(a.major, b.major);
      NatToStringInjective(a.minor, b.minor);
    }
  }

  datatype Certificate = Certificate(rawData: seq<byte>)

  /** What the listener hands over for one request. */
  datatype ListenerRequest = ListenerRequest(
    httpMethod: string,
    url: Uri,
    headers: Table<seq<string>>,
    remoteAddress: Option<string>,
    clientCertificate: Option<Certificate>,
    protocolVersion: ProtocolVersion,
    inputStream: seq<byte>)

  datatype Url = Url(scheme: string, hostName: string, port: Option<nat>, basePath: string, path: string, query: string)

  datatype RequestStream = RequestStream(contents: seq<byte>, expectedLength: int)

  /** What the framework receives. */
  datatype Request = Request(
    httpMethod: string,
    url: Url,
    body: RequestStream,
    headers: Table<seq<string>>,
    userHostAddress: Option<string>,
    certificate: Option<Certificate>,
    protocolVersion: string)

  function ConvertRequestToNancyRequest(baseUris: seq<Uri>, config: HostConfiguration, request: ListenerRequest): (r: Result<Request, Exception>)
    ensures GetBaseUri(baseUris, config, request.url).None? ==>
      r == Failure(InvalidOperation(NoBaseUri + request.url.text))
    ensures r.Success? <==>
      && GetBaseUri(baseUris, config, request.url).Some?
      && GetExpectedRequestLength(Some(request.headers)).Success?
      && |GetBaseUri(baseUris, config, request.url).value.segments| <= |request.url.segments|
    ensures r.Success? ==>
      var baseUri := GetBaseUri(baseUris, config, request.url).value;
      && r.value.url.basePath == TrimEnd(AbsolutePath(baseUri), '/')
      && MakeAppLocalPath(baseUri, request.url) == Success(r.value.url.path)
      && r.value.body == RequestStream(request.inputStream, GetExpectedRequestLength(Some(request.headers)).value)
    ensures r.Success? ==>
      && r.value.httpMethod == request.httpMethod
      && r.value.headers == request.headers
      && r.value.userHostAddress == request.remoteAddress
      && r.value.url.scheme == request.url.scheme
      && r.value.url.hostName == request.url.host
      && r.value.url.query == request.url.query
      && (r.value.url.port.None? <==> request.url.isDefaultPort)
      && (r.value.url.port.Some? ==> r.value.url.port.value == request.url.port)
      && r.value.certificate == (if config.enableClientCertificates then request.clientCertificate else None)
      && r.value.protocolVersion == ProtocolString(request.protocolVersion)
  {
    match GetBaseUri(baseUris, config, request.url)
    case None => Failure(InvalidOperation(NoBaseUri + request.url.text))
    case Some(baseUri) =>
      match GetExpectedRequestLength(Some(request.headers))
      case Failure(e) => Failure(e)
      case Success(expected) =>
        MakeAppLocalPathResult(baseUri, request.url);
        match MakeAppLocalPath(baseUri, request.url)
        case Failure(e) => Failure(e)
        case Success(path) =>
          var url := Url(
            request.url.scheme,
            request.url.host,
            if request.url.isDefaultPort then None else Some(request.url.port),
            TrimEnd(AbsolutePath(baseUri), '/'),
            path,
            request.url.query);
          var certificate := if config.enableClientCertificates then request.clientCertificate else None;
          Success(Request(
            request.httpMethod,
            url,
            RequestStream(request.inputStream, expected),
            request.headers,
            request.remoteAddress,
            certificate,
            ProtocolString(request.protocolVersion)))
  }

  /** A request served by a configured base URI whose segments it extends
      gets as path what follows the base, and as base path the base's path. */
  lemma ConvertedPathFollowsBase(baseUris: seq<Uri>, config: HostConfiguration, request: ListenerRequest, i: nat)
    requires i < |baseUris| && IsCaseInsensitiveBaseOf(baseUris[i], request.url)
    requires forall j :: 0 <= j < i ==> !IsCaseInsensitiveBaseOf(baseUris[j], request.url)
    requires |baseUris[i].segments| <= |request.url.segments|
    requires forall k :: 0 <= k < |baseUris[i].segments| ==> SegmentEquals(baseUris[i].segments[k], request.url.segments[k])
    requires GetExpectedRequestLength(Some(request.headers)).Success?
    ensures var r := ConvertRequestToNancyRequest(baseUris, config, request);
      && r.Success?
      && r.value.url.basePath == TrimEnd(AbsolutePath(baseUris[i]), '/')
      && r.value.url.path == "/" + Join(request.url.segments[|baseUris[i].segments|..])
  {
    EarliestMatchWins(baseUris, config, request.url, i);
    LocalPathStripsMatchedBase(baseUris[i], request.url);
  }

  /** Under the authority fallback the base path is empty and the path is
      the request's whole path. */
  lemma ConvertedPathUnderFallback(baseUris: seq<Uri>, config: HostConfiguration, request: ListenerRequest)
    requires config.allowAuthorityFallback
    requires forall j :: 0 <= j < |baseUris| ==> !IsCaseInsensitiveBaseOf(baseUris[j], request.url)
    requires |request.url.segments| > 0 && request.url.segments[0] == "/"
    requires GetExpectedRequestLength(Some(request.headers)).Success?
    ensures var r := ConvertRequestToNancyRequest(baseUris, config, request);
      && r.Success?
      && r.value.url.basePath == ""
      && r.value.url.path == AbsolutePath(request.url)
  {
    var a := AuthorityUri(request.url);
    AuthorityUriMatches(request.url);
    MakeAppLocalPathResult(a, request.url);
    assert AbsolutePath(a) == "/";
    assert TrimEnd("/", '/') == "";
  }
}

=== FILE: ReservationFailure.dfy ===
/** The error raised when the listener may not bind and reservations are not
    to be created automatically: it carries the prefixes and the user, and its
    message is derived from them on access. */
module ReservationFailure {
  import NetSh

  /** `Environment.NewLine`, fixed to its value on Windows, where `netsh` runs. */
  const NewLine: string := "\r\n"

  /** The explanation that precedes the commands, one entry per line. */
  const PreambleLines: seq<string> := [
    "The Nancy self host was unable to start, as no namespace reservation existed for the provided url(s).",
    "",
    "Please either enable UrlReservations.CreateAutomatically on the HostConfiguration provided to ",
    "the NancyHost, or create the reservations manually with the (elevated) command(s):",
    ""
  ]

  /** The command an operator runs to reserve `prefix` for `user`. */
  function CommandLine(prefix: string, user: string): string
  {
    "netsh " + NetSh.GetParameters(prefix, user)
  }

  /** `StringBuilder.AppendLine` applied to each line in turn. */
  function AppendLines(lines: seq<string>): string
  {
    if |lines| == 0 then "" else lines[0] + NewLine + AppendLines(lines[1..])
  }

  datatype AutomaticUrlReservationCreationFailure = AutomaticUrlReservationCreationFailure(prefixes: seq<string>, user: string)
  {
    /** One command per prefix, in order, all for the same stored user. */
    function CommandLines(): (r: seq<string>)
      ensures |r| == |prefixes|
      ensures forall i :: 0 <= i < |prefixes| ==> r[i] == CommandLine(prefixes[i], user)
    {
      seq(|prefixes|, i requires 0 <= i < |prefixes| => CommandLine(prefixes[i], user))
    }

    function Message(): string
    {
      AppendLines(PreambleLines) + AppendLines(CommandLines())
    }
  }

  /** Splits a text at each `NewLine`; the text after the last one is the
      final element. */
  function SplitLines(s: string): (r: seq<string>)
    ensures |r| >= 1
    decreases |s|
  {
    if |s| == 0 then [""]
    else if |s| >= 2 && s[0] == '\r' && s[1] == '\n' then [""] + SplitLines(s[2..])
    else
      var rest := SplitLines(s[1..]);
      [[s[0]] + rest[0]] + rest[1..]
  }

  predicate NoLineFeed(s: string)
  {
    '\n' !in s
  }

  lemma {:induction false} SplitLineThenRest(line: string, t: string)
    requires NoLineFeed(line)
    ensures SplitLines(line + NewLine + t) == [line] + SplitLines(t)
    decreases |line|
  {
    if |line| == 0 {
      assert line + NewLine + t == "\r\n" + t;
      assert ("\r\n" + t)[2..] == t;
    } else {
      var s := line + NewLine + t;
      SplitLineThenRest(line[1..], t);
      assert s[1..] == line[1..] + NewLine + t;
      assert s[1] != '\n' by {
        if |line| > 1 { assert s[1] == line[1]; } else { assert s[1] == '\r'; }
      }
      assert [line[0]] + line[1..] == line;
    }
  }

  /** Lines without a line feed are recovered from the text they were
      appended to. */
  lemma {:induction false} SplitAppendedLines(lines: seq<string>, t: string)
    requires forall i :: 0 <= i < |lines| ==> NoLineFeed(lines[i])
    ensures SplitLines(AppendLines(lines) + t) == lines + SplitLines(t)
    decreases |lines|
  {
    if |lines| == 0 {
      assert AppendLines(lines) + t == t;
    } else {
      SplitAppendedLines(lines[1..], t);
      assert AppendLines(lines) + t == lines[0] + NewLine + (AppendLines(lines[1..]) + t);
      SplitLineThenRest(lines[0], AppendLines(lines[1..]) + t);
      assert lines == [lines[0]] + lines[1..];
    }
  }

  lemma CommandLineHasNoLineFeed(prefix: string, user: string)
    requires NoLineFeed(prefix) && NoLineFeed(user)
    ensures NoLineFeed(CommandLine(prefix, user))
  {
    var c := CommandLine(prefix, user);
    assert c == "netsh " + NetSh.ArgumentsHead + prefix + NetSh.ArgumentsMiddle + user + NetSh.ArgumentsTail;
    assert NoLineFeed("netsh " + NetSh.ArgumentsHead);
    assert NoLineFeed(NetSh.ArgumentsMiddle);
    assert NoLineFeed(NetSh.ArgumentsTail);
  }

  /** The fixed explanatory text that opens every message. */
  function Preamble(): string
  {
    AppendLines(PreambleLines)
  }

  /** When neither the prefixes nor the user contain a line feed, the message
      is the fixed preamble followed by text that reads as exactly one `netsh`
      command line per prefix, in order, each line terminated. */
  lemma MessageLines(f: AutomaticUrlReservationCreationFailure)
    requires forall i :: 0 <= i < |f.prefixes| ==> NoLineFeed(f.prefixes[i])
    requires NoLineFeed(f.user)
    ensures |Preamble()| <= |f.Message()| && f.Message()[..|Preamble()|] == Preamble()
    ensures SplitLines(f.Message()[|Preamble()|..]) == f.CommandLines() + [""]
  {
    var cmds := f.CommandLines();
    forall i | 0 <= i < |cmds| ensures NoLineFeed(cmds[i]) {
      CommandLineHasNoLineFeed(f.prefixes[i], f.user);
    }
    SplitAppendedLines(cmds, "");
    assert AppendLines(cmds) + "" == AppendLines(cmds);
    assert f.Message()[|Preamble()|..] == AppendLines(cmds);
  }

  /** Without prefixes the message is the preamble alone. */
  lemma MessageWithoutPrefixes(user: string)
    ensures AutomaticUrlReservationCreationFailure([], user).Message() == Preamble()
  {
    assert AutomaticUrlReservationCreationFailure([], user).CommandLines() == [];
    assert Preamble() + "" == Preamble();
  }
}

=== FILE: ResponseConversion.dfy ===
/** Conversion of a framework response onto the listener's response: headers
    outside the transport's own, one Set-Cookie per cookie, status, and the
    body written either with the transport's default framing or with a
    declared length. */
module ResponseConversion {
  import opened Wrappers
  import opened Numbers
  import opened Dictionaries
  import opened Exceptions
  import opened IgnoredHeaders

  const SetCookie: string := "Set-Cookie"
  const ContentLength: string := "Content-Length"

  /** What the framework produced; `contents` is what its body writer
      writes. */
  datatype Response = Response(
    statusCode: int,
    headers: Table<string>,
    cookies: seq<string>,
    reasonPhrase: Option<string>,
    contentType: Option<string>,
    contents: seq<byte>)

  /** A header written on the listener response: `AddHeader` sets a header,
      `AppendHeader` adds one more value to the header collection. */
  datatype HeaderWrite = AddHeader(name: string, value: string) | AppendHeader(name: string, value: string)

  /** The listener response as the conversion leaves it; `None` is a
      property the conversion did not set. */
  datatype ListenerResponse = ListenerResponse(
    headerWrites: seq<HeaderWrite>,
    statusDescription: Option<string>,
    contentType: Option<string>,
    statusCode: int,
    sendChunked: Option<bool>,
    contentLength64: Option<int>,
    output: seq<byte>)

  /** The listener response after a conversion, and the exception it threw,
      if any. */
  datatype Written = Written(response: ListenerResponse, error: Option<Exception>)

  /** The framework's headers the listener gets, in order: every header the
      transport does not own. */
  function CopiedHeaders(headers: Table<string>): (r: seq<HeaderWrite>)
    ensures |r| <= |headers|
    ensures forall i :: 0 <= i < |r| ==> r[i].AddHeader? && !IsIgnored(r[i].name)
  {
    if |headers| == 0 then []
    else
      var rest := CopiedHeaders(headers[1..]);
      if IsIgnored(headers[0].0) then rest else [AddHeader(headers[0].0, headers[0].1)] + rest
  }

  /** Exactly the headers the transport does not own are copied: each copy
      is one of the framework's headers, and each such header is copied. */
  lemma {:induction false} CopiedHeadersExactly(headers: Table<string>)
    ensures forall w :: w in CopiedHeaders(headers) ==> (w.name, w.value) in headers
    ensures forall h :: h in headers && !IsIgnored(h.0) ==> AddHeader(h.0, h.1) in CopiedHeaders(headers)
    decreases |headers|
  {
    if |headers| > 0 {
      CopiedHeadersExactly(headers[1..]);
      assert headers == [headers[0]] + headers[1..];
    }
  }

  /** Copying one header in front of others. */
  lemma CopiedHeadersCons(h: (string, string), t: Table<string>)
    ensures CopiedHeaders([h] + t) == (if IsIgnored(h.0) then [] else [AddHeader(h.0, h.1)]) + CopiedHeaders(t)
  {
    assert ([h] + t)[0] == h && ([h] + t)[1..] == t;
  }

  /** Copying distributes over concatenation, so header order is kept. */
  lemma {:induction false} CopiedHeadersAppend(a: Table<string>, b: Table<string>)
    ensures CopiedHeaders(a + b) == CopiedHeaders(a) + CopiedHeaders(b)
    decreases |a|
  {
    if |a| == 0 {
      assert a + b == b;
    } else {
      var t := a[1..];
      CopiedHeadersAppend(t, b);
      assert a + b == [a[0]] + (t + b);
      assert a == [a[0]] + t;
      CopiedHeadersCons(a[0], t + b);
      CopiedHeadersCons(a[0], t);
      var h := if IsIgnored(a[0].0) then [] else [AddHeader(a[0].0, a[0].1)];
      assert CopiedHeaders(a + b) == h + (CopiedHeaders(t) + CopiedHeaders(b));
      assert CopiedHeaders(a) == h + CopiedHeaders(t);
    }
  }

  /** Headers the transport owns are never copied, in any letter case. */
  lemma CopiedHeadersSkipIgnored(headers: Table<string>)
    ensures forall i :: 0 <= i < |CopiedHeaders(headers)| ==>
      CopiedHeaders(headers)[i].name != "Content-Length" && CopiedHeaders(headers)[i].name != "transfer-encoding"
  {
    IgnoredInAnyCase();
    assert IsIgnored("transfer-encoding") by {
      KnownHeadersAreFolded();
    }
  }

  /** One appended Set-Cookie header per cookie, in order. */
  function CookieWrites(cookies: seq<string>): (r: seq<HeaderWrite>)
    ensures |r| == |cookies|
    ensures forall i :: 0 <= i < |r| ==> r[i] == AppendHeader(SetCookie, cookies[i])
  {
    seq(|cookies|, i requires 0 <= i < |cookies| => AppendHeader(SetCookie, cookies[i]))
  }

  /** The status codes the listener response accepts. */
  predicate ValidStatusCode(code: int)
  {
    100 <= code <= 999
  }

  /** Headers, cookies, reason phrase and content type, written before the
      status. */
  function WriteHeaders(nancy: Response, raw: ListenerResponse): ListenerResponse
  {
    raw.(
      headerWrites := raw.headerWrites + CopiedHeaders(nancy.headers) + CookieWrites(nancy.cookies),
      statusDescription := if nancy.reasonPhrase.Some? then nancy.reasonPhrase else raw.statusDescription,
      contentType := if nancy.contentType.Some? then nancy.contentType else raw.contentType)
  }

  /** The body written straight to the output; framing is left to the
      transport. */
  function OutputWithDefaultTransferEncoding(nancy: Response, raw: ListenerResponse): (r: ListenerResponse)
    ensures |r.output| == |raw.output| + |nancy.contents|
    ensures r.output[..|raw.output|] == raw.output && r.output[|raw.output|..] == nancy.contents
    ensures r.(output := raw.output) == raw
  {
    raw.(output := raw.output + nancy.contents)
  }

  /** The body buffered, then written unchunked under a declared length: the
      framework's Content-Length header when it has one, the buffer's size
      otherwise. A header value that is not a 64-bit number throws before
      anything is set; a negative one throws once chunking is already off.
      The output stream holds the body to the declared length: a longer body
      is refused at the write, and a shorter one is written but closing the
      stream throws. */
  function OutputWithContentLength(nancy: Response, raw: ListenerResponse): (r: Written)
    ensures var declared := Lookup(nancy.headers, ContentLength);
      r.error.None? <==> declared.None? || ParseInt64(declared.value) == Some(|nancy.contents|)
    ensures var declared := Lookup(nancy.headers, ContentLength);
      declared.Some? && ParseInt64(declared.value).None? ==>
        r.response == raw && r.error == Some(NumberFormat(declared.value))
    ensures var declared := Lookup(nancy.headers, ContentLength);
      declared.Some? && ParseInt64(declared.value).Some? && ParseInt64(declared.value).value < 0 ==>
        && r.error == Some(ArgumentOutOfRange(ParseInt64(declared.value).value))
        && r.response.sendChunked == Some(false)
        && r.response.(sendChunked := raw.sendChunked) == raw
    ensures var declared := Lookup(nancy.headers, ContentLength);
      declared.Some? && ParseInt64(declared.value).Some? && ParseInt64(declared.value).value >= 0 &&
      ParseInt64(declared.value).value != |nancy.contents| ==>
        var n := ParseInt64(declared.value).value;
        && r.error == Some(BodyLengthMismatch(n, |nancy.contents|))
        && r.response.sendChunked == Some(false)
        && r.response.contentLength64 == Some(n)
        && r.response.output == (if |nancy.contents| < n then raw.output + nancy.contents else raw.output)
        && r.response.(sendChunked := raw.sendChunked, contentLength64 := raw.contentLength64, output := raw.output) == raw
    ensures r.error.None? ==>
      && r.response.sendChunked == Some(false)
      && r.response.output == raw.output + nancy.contents
      && r.response.(sendChunked := raw.sendChunked, contentLength64 := raw.contentLength64, output := raw.output) == raw
    ensures r.error.None? ==> r.response.contentLength64 == Some(|nancy.contents|)
  {
    var length :=
      match Lookup(nancy.headers, ContentLength)
      case Some(value) => (match ParseInt64(value) case Some(n) => Success(n) case None => Failure(NumberFormat(value)))
      case None => Success(|nancy.contents|);
    match length
    case Failure(e) => Written(raw, Some(e))
    case Success(n) =>
      var unchunked := raw.(sendChunked := Some(false));
      if n < 0 then Written(unchunked, Some(ArgumentOutOfRange(n)))
      else
        var declared := unchunked.(contentLength64 := Some(n));
        if |nancy.contents| > n then Written(declared, Some(BodyLengthMismatch(n, |nancy.contents|)))
        else
          var written := declared.(output := raw.output + nancy.contents);
          if |nancy.contents| < n then Written(written, Some(BodyLengthMismatch(n, |nancy.contents|)))
          else Written(written, None)
  }

  /** A declared length becomes the response's length whatever the body's
      size, and the body goes through only when it has exactly that size. */
  lemma DeclaredLengthIsTrusted(nancy: Response, raw: ListenerResponse, n: nat)
    requires n <= MaxInt64
    requires Lookup(nancy.headers, ContentLength) == Some(NatToString(n))
    ensures OutputWithContentLength(nancy, raw).response.contentLength64 == Some(n)
    ensures OutputWithContentLength(nancy, raw).error.None? <==> |nancy.contents| == n
  {
    ParseRenderedInt64(n);
  }

  /** Headers, cookies, reason phrase and content type are written first; a
      status outside 100..999 then throws, and otherwise the body is written
      with the configured framing. */
  function ConvertNancyResponseToResponse(nancy: Response, raw: ListenerResponse, allowChunkedEncoding: bool): (r: Written)
    ensures r.response.headerWrites == raw.headerWrites + CopiedHeaders(nancy.headers) + CookieWrites(nancy.cookies)
    ensures r.response.statusDescription == (if nancy.reasonPhrase.Some? then nancy.reasonPhrase else raw.statusDescription)
    ensures r.response.contentType == (if nancy.contentType.Some? then nancy.contentType else raw.contentType)
    ensures !ValidStatusCode(nancy.statusCode) ==>
      && r.error == Some(ProtocolViolation(nancy.statusCode))
      && r.response.statusCode == raw.statusCode
      && r.response.sendChunked == raw.sendChunked
      && r.response.contentLength64 == raw.contentLength64
      && r.response.output == raw.output
    ensures ValidStatusCode(nancy.statusCode) ==> r.response.statusCode == nancy.statusCode
    ensures ValidStatusCode(nancy.statusCode) && allowChunkedEncoding ==>
      && r.error.None?
      && r.response.sendChunked == raw.sendChunked
      && r.response.contentLength64 == raw.contentLength64
      && r.response.output == raw.output + nancy.contents
    ensures ValidStatusCode(nancy.statusCode) && !allowChunkedEncoding ==>
      r == OutputWithContentLength(nancy, WriteHeaders(nancy, raw).(statusCode := nancy.statusCode))
  {
    var head := WriteHeaders(nancy, raw);
    if !ValidStatusCode(nancy.statusCode) then Written(head, Some(ProtocolViolation(nancy.statusCode)))
    else
      var status := head.(statusCode := nancy.statusCode);
      if allowChunkedEncoding then Written(OutputWithDefaultTransferEncoding(nancy, status), None)
      else OutputWithContentLength(nancy, status)
  }

  /** Whatever the framing, the body reaches the output unchanged when the
      conversion does not throw. It throws exactly for an invalid status, or
      in length mode for a declared length other than the body's size; the
      body is then not written, unless it was shorter than the declared
      length and only closing the stream failed. */
  lemma BodyReachesOutput(nancy: Response, raw: ListenerResponse, allowChunkedEncoding: bool)
    ensures var r := ConvertNancyResponseToResponse(nancy, raw, allowChunkedEncoding);
      r.error.None? ==> r.response.output == raw.output + nancy.contents
    ensures var r := ConvertNancyResponseToResponse(nancy, raw, allowChunkedEncoding);
      r.error.Some? && !r.error.value.BodyLengthMismatch? ==> r.response.output == raw.output
    ensures var r := ConvertNancyResponseToResponse(nancy, raw, allowChunkedEncoding);
      r.error.Some? && r.error.value.BodyLengthMismatch? ==>
        r.response.output == (if r.error.value.size < r.error.value.declared then raw.output + nancy.contents else raw.output)
    ensures var r := ConvertNancyResponseToResponse(nancy, raw, allowChunkedEncoding);
      var declared := Lookup(nancy.headers, ContentLength);
      r.error.Some? <==>
        || !ValidStatusCode(nancy.statusCode)
        || (!allowChunkedEncoding && declared.Some? && ParseInt64(declared.value) != Some(|nancy.contents|))
  {
  }
}

=== FILE: Text.dfy ===
/** String helpers with the semantics of the .NET operations the host uses:
    ordinal ignore-case comparison (restricted to ASCII letters), substring
    search and replacement, `TrimEnd` and `IsNullOrWhiteSpace`. */
module Text {
  import opened Wrappers

  /** Case folding of one character, as ordinal ignore-case comparison sees it. */
  function FoldChar(c: char): char
  {
    if 'A' <= c <= 'Z' then (c as int - 'A' as int + 'a' as int) as char else c
  }

  function Fold(s: string): string
  {
    seq(|s|, i requires 0 <= i < |s| => FoldChar(s[i]))
  }

  /** `String.Equals(a, b, StringComparison.OrdinalIgnoreCase)`: same
      length, and equal characters once folded, position by position. */
  predicate EqualsIgnoreCase(a: string, b: string)
    decreases |a|
  {
    |a| == |b| && (|a| == 0 || (FoldChar(a[0]) == FoldChar(b[0]) && EqualsIgnoreCase(a[1..], b[1..])))
  }

  /** Ignore-case equality is equality of the folded strings. */
  lemma {:induction false} EqualsIgnoreCaseIffFold(a: string, b: string)
    ensures EqualsIgnoreCase(a, b) <==> Fold(a) == Fold(b)
    decreases |a|
  {
    if |a| == |b| && |a| > 0 {
      EqualsIgnoreCaseIffFold(a[1..], b[1..]);
      assert Fold(a) == [FoldChar(a[0])] + Fold(a[1..]);
      assert Fold(b) == [FoldChar(b[0])] + Fold(b[1..]);
      if Fold(a) == Fold(b) {
        assert Fold(a)[1..] == Fold(a[1..]) && Fold(b)[1..] == Fold(b[1..]);
      }
    }
  }

  lemma EqualsIgnoreCaseReflexive(a: string)
    ensures EqualsIgnoreCase(a, a)
  {
    EqualsIgnoreCaseIffFold(a, a);
  }

  lemma FoldConcat(a: string, b: string)
    ensures Fold(a + b) == Fold(a) + Fold(b)
  {
  }

  lemma FoldCharIsSlash(c: char)
    ensures FoldChar(c) == '/' <==> c == '/'
  {
  }

  predicate OccursAt(s: string, pat: string, i: int)
  {
    0 <= i && i + |pat| <= |s| && s[i..i + |pat|] == pat
  }

  /** `s.Contains(pat)` with ordinal comparison. */
  predicate Contains(s: string, pat: string)
  {
    exists i | 0 <= i <= |s| - |pat| :: OccursAt(s, pat, i)
  }

  /** `s.Replace(pat, rep)`: every non-overlapping occurrence of `pat`, found
      left to right, is replaced by `rep`. */
  function ReplaceAll(s: string, pat: string, rep: string): string
    requires |pat| > 0
    decreases |s|
  {
    if |s| < |pat| then s
    else if s[..|pat|] == pat then rep + ReplaceAll(s[|pat|..], pat, rep)
    else [s[0]] + ReplaceAll(s[1..], pat, rep)
  }

  /** A string without an occurrence of the pattern is left as it is. */
  lemma {:induction false} ReplaceAllWithoutOccurrence(s: string, pat: string, rep: string)
    requires |pat| > 0
    requires !Contains(s, pat)
    ensures ReplaceAll(s, pat, rep) == s
    decreases |s|
  {
    if |s| < |pat| {
    } else {
      assert !OccursAt(s, pat, 0);
      assert !Contains(s[1..], pat) by {
        forall i | 0 <= i <= |s[1..]| - |pat| ensures !OccursAt(s[1..], pat, i) {
          assert !OccursAt(s, pat, i + 1);
          assert s[1..][i..i + |pat|] == s[i + 1..i + 1 + |pat|];
        }
      }
      ReplaceAllWithoutOccurrence(s[1..], pat, rep);
    }
  }

  /** `i` is where the leftmost occurrence of `pat` in `s` starts. */
  predicate FirstOccurrence(s: string, pat: string, i: int)
  {
    OccursAt(s, pat, i) && forall j :: 0 <= j < i ==> !OccursAt(s, pat, j)
  }

  /** Past a first character that starts no occurrence, the leftmost
      occurrence is one position earlier in the rest. */
  lemma FirstOccurrenceShift(s: string, pat: string, i: int)
    requires 0 < i && FirstOccurrence(s, pat, i)
    ensures |pat| <= |s| && s[..|pat|] != pat
    ensures FirstOccurrence(s[1..], pat, i - 1)
  {
    assert s == [s[0]] + s[1..];
    assert !OccursAt(s, pat, 0);
    assert s[..|pat|] == s[0..0 + |pat|];
    OccursAtShift(s[0], s[1..], pat, i);
    forall j | 0 <= j < i - 1 ensures !OccursAt(s[1..], pat, j) {
      OccursAtShift(s[0], s[1..], pat, j + 1);
    }
  }

  /** Where the pattern does not start, the first character is copied. */
  lemma ReplaceAllSkipsHead(s: string, pat: string, rep: string)
    requires |pat| > 0 && |pat| <= |s| && s[..|pat|] != pat
    ensures ReplaceAll(s, pat, rep) == [s[0]] + ReplaceAll(s[1..], pat, rep)
  {
  }

  lemma PrefixCons(s: string, i: nat)
    requires 0 < i <= |s|
    ensures s[..i] == [s[0]] + s[1..][..i - 1]
  {
  }

  lemma ConsTake(c: char, t: string, m: nat)
    requires 0 < m <= |t| + 1
    ensures ([c] + t)[..m] == [c] + t[..m - 1]
  {
  }

  lemma DropOfTail(s: string, k: nat)
    requires 0 < |s| && k < |s|
    ensures s[1..][k..] == s[k + 1..]
  {
  }

  lemma ConsAssociates(c: char, head: string, rep: string, after: string)
    ensures [c] + (head + rep + after) == ([c] + head) + rep + after
  {
  }

  /** A copied first character goes in front of whatever the rest becomes. */
  lemma ReplaceAllCopiesHead(s: string, pat: string, rep: string, i: nat, after: string)
    requires |pat| > 0 && 0 < i <= |s| && |pat| <= |s| && s[..|pat|] != pat
    requires ReplaceAll(s[1..], pat, rep) == s[1..][..i - 1] + rep + after
    ensures ReplaceAll(s, pat, rep) == s[..i] + rep + after
  {
    ReplaceAllSkipsHead(s, pat, rep);
    ConsAssociates(s[0], s[1..][..i - 1], rep, after);
    PrefixCons(s, i);
  }

  /** An occurrence at the start is replaced. */
  lemma ReplaceAllAtStart(s: string, pat: string, rep: string)
    requires |pat| > 0 && OccursAt(s, pat, 0)
    ensures ReplaceAll(s, pat, rep) == s[..0] + rep + ReplaceAll(s[0 + |pat|..], pat, rep)
  {
    assert s[..|pat|] == s[0..|pat|];
  }

  /** The inductive step: past a first character that starts no occurrence,
      the rest is handled one position earlier. */
  lemma {:induction false} ReplaceAllAtFirstOccurrenceStep(s: string, pat: string, rep: string, i: nat)
    requires |pat| > 0 && 0 < i && i + |pat| <= |s| && s[..|pat|] != pat
    requires FirstOccurrence(s[1..], pat, i - 1)
    ensures ReplaceAll(s, pat, rep) == s[..i] + rep + ReplaceAll(s[i + |pat|..], pat, rep)
    decreases i, 0
  {
    ReplaceAllAtFirstOccurrence(s[1..], pat, rep, i - 1);
    ReplaceAllCopiesHead(s, pat, rep, i, ReplaceAll(s[1..][i - 1 + |pat|..], pat, rep));
    DropOfTail(s, i - 1 + |pat|);
  }

  /** The text before the leftmost occurrence is copied, the occurrence
      becomes the replacement, and the rest is replaced in turn. */
  lemma {:induction false} ReplaceAllAtFirstOccurrence(s: string, pat: string, rep: string, i: nat)
    requires |pat| > 0
    requires FirstOccurrence(s, pat, i)
    ensures ReplaceAll(s, pat, rep) == s[..i] + rep + ReplaceAll(s[i + |pat|..], pat, rep)
    decreases i, 1
  {
    if i == 0 {
      ReplaceAllAtStart(s, pat, rep);
    } else {
      FirstOccurrenceShift(s, pat, i);
      ReplaceAllAtFirstOccurrenceStep(s, pat, rep, i);
    }
  }

  /** Replacing by something shorter shrinks the string exactly when there
      was an occurrence to replace. */
  lemma {:induction false} ReplaceAllShrinks(s: string, pat: string, rep: string)
    requires |pat| > 0 && |rep| < |pat|
    ensures |ReplaceAll(s, pat, rep)| <= |s|
    ensures |ReplaceAll(s, pat, rep)| < |s| <==> Contains(s, pat)
    decreases |s|
  {
    if |s| < |pat| {
    } else if s[..|pat|] == pat {
      ReplaceAllShrinks(s[|pat|..], pat, rep);
      assert OccursAt(s, pat, 0);
    } else {
      ReplaceAllShrinks(s[1..], pat, rep);
      if Contains(s, pat) {
        var i :| 0 <= i <= |s| - |pat| && OccursAt(s, pat, i);
        assert i != 0;
        assert s[1..][i - 1..i - 1 + |pat|] == s[i..i + |pat|];
        assert OccursAt(s[1..], pat, i - 1);
      }
      if Contains(s[1..], pat) {
        var i :| 0 <= i <= |s[1..]| - |pat| && OccursAt(s[1..], pat, i);
        assert s[1..][i..i + |pat|] == s[i + 1..i + 1 + |pat|];
        assert OccursAt(s, pat, i + 1);
      }
    }
  }

  /** No character of `rep` appears in `pat`. */
  predicate Disjoint(rep: string, pat: string)
  {
    forall k :: 0 <= k < |rep| ==> rep[k] !in pat
  }

  /** Up to the first character of a replacement, the result copies the input. */
  lemma {:induction false} ReplaceAllCopiesPrefix(t: string, pat: string, rep: string, m: nat)
    requires |pat| > 0 && |rep| > 0 && Disjoint(rep, pat)
    requires m <= |ReplaceAll(t, pat, rep)|
    ensures (forall k :: 0 <= k < m ==> ReplaceAll(t, pat, rep)[k] in pat) ==>
              m <= |t| && ReplaceAll(t, pat, rep)[..m] == t[..m]
    decreases |t|
  {
    var r := ReplaceAll(t, pat, rep);
    if |t| < |pat| {
    } else if t[..|pat|] == pat {
      if m > 0 {
        assert r[0] == rep[0] && rep[0] !in pat;
      }
    } else if m > 0 {
      var r' := ReplaceAll(t[1..], pat, rep);
      assert r == [t[0]] + r';
      if forall k :: 0 <= k < m ==> r[k] in pat {
        forall k | 0 <= k < m - 1 ensures r'[k] in pat {
          assert r'[k] == r[k + 1];
        }
        ReplaceAllCopiesPrefix(t[1..], pat, rep, m - 1);
        ConsTake(t[0], r', m);
        PrefixCons(t, m);
      }
    }
  }

  /** A replacement text that shares no character with the pattern cannot
      start an occurrence, so none is created in front of an occurrence-free
      rest. */
  lemma ReplacementCreatesNoOccurrence(rep: string, rest: string, pat: string)
    requires |pat| > 0 && Disjoint(rep, pat)
    requires !Contains(rest, pat)
    ensures !Contains(rep + rest, pat)
  {
    var r := rep + rest;
    forall j | 0 <= j <= |r| - |pat| ensures !OccursAt(r, pat, j) {
      if j < |rep| {
        assert r[j..j + |pat|][0] == rep[j] && rep[j] !in pat;
      } else {
        assert rest[j - |rep|..j - |rep| + |pat|] == r[j..j + |pat|];
        assert !OccursAt(rest, pat, j - |rep|);
      }
    }
  }

  /** Past the first character, occurrences are those of the rest. */
  lemma OccursAtShift(c: char, t: string, pat: string, j: int)
    requires 1 <= j
    ensures OccursAt([c] + t, pat, j) <==> OccursAt(t, pat, j - 1)
  {
    if j + |pat| <= |[c] + t| {
      assert ([c] + t)[j..j + |pat|] == t[j - 1..j - 1 + |pat|];
    }
  }

  /** The character copied from a position where the pattern does not start
      does not start an occurrence in the result either. */
  lemma CopiedHeadStartsNoOccurrence(s: string, pat: string, rep: string)
    requires |pat| > 0 && |rep| > 0 && Disjoint(rep, pat)
    requires |s| >= |pat| && s[..|pat|] != pat
    ensures !OccursAt([s[0]] + ReplaceAll(s[1..], pat, rep), pat, 0)
  {
    var r' := ReplaceAll(s[1..], pat, rep);
    var r := [s[0]] + r';
    if |pat| <= |r| {
      ReplaceAllCopiesPrefix(s[1..], pat, rep, |pat| - 1);
      assert s[..|pat|] == [s[0]] + s[1..][..|pat| - 1];
      assert r[..|pat|] == [s[0]] + r'[..|pat| - 1];
      assert r[0..|pat|] == r[..|pat|];
    }
  }

  /** A copied character cannot start an occurrence: if it did, the input
      would have had one at the same place and it would have been replaced. */
  lemma CopyCreatesNoOccurrence(s: string, pat: string, rep: string)
    requires |pat| > 0 && |rep| > 0 && Disjoint(rep, pat)
    requires |s| >= |pat| && s[..|pat|] != pat
    requires !Contains(ReplaceAll(s[1..], pat, rep), pat)
    ensures !Contains([s[0]] + ReplaceAll(s[1..], pat, rep), pat)
  {
    var r' := ReplaceAll(s[1..], pat, rep);
    var r := [s[0]] + r';
    forall j | 0 <= j <= |r| - |pat| ensures !OccursAt(r, pat, j) {
      if j == 0 {
        CopiedHeadStartsNoOccurrence(s, pat, rep);
      } else {
        OccursAtShift(s[0], r', pat, j);
      }
    }
  }

  /** After the replacement no occurrence of the pattern is left, provided the
      replacement shares no character with the pattern. */
  lemma {:induction false} ReplaceAllLeavesNoOccurrence(s: string, pat: string, rep: string)
    requires |pat| > 0 && |rep| > 0 && Disjoint(rep, pat)
    ensures !Contains(ReplaceAll(s, pat, rep), pat)
    decreases |s|
  {
    if |s| < |pat| {
      assert ReplaceAll(s, pat, rep) == s;
    } else if s[..|pat|] == pat {
      ReplaceAllLeavesNoOccurrence(s[|pat|..], pat, rep);
      ReplacementCreatesNoOccurrence(rep, ReplaceAll(s[|pat|..], pat, rep), pat);
    } else {
      ReplaceAllLeavesNoOccurrence(s[1..], pat, rep);
      CopyCreatesNoOccurrence(s, pat, rep);
    }
  }

  /** `s.TrimEnd(c)`: all trailing copies of `c` removed. */
  function TrimEnd(s: string, c: char): (r: string)
    ensures r <= s
    ensures |r| == 0 || r[|r| - 1] != c
    ensures forall i :: |r| <= i < |s| ==> s[i] == c
    decreases |s|
  {
    if |s| > 0 && s[|s| - 1] == c then TrimEnd(s[..|s| - 1], c) else s
  }

  /** `Char.IsWhiteSpace`, restricted to the Latin-1 range. */
  predicate IsWhiteSpace(c: char)
  {
    c == ' ' || '\t' <= c <= '\r' || c == 0x85 as char || c == 0xA0 as char
  }

  /** `String.IsNullOrWhiteSpace`. */
  predicate IsNullOrWhiteSpace(s: Option<string>)
  {
    s.None? || forall i :: 0 <= i < |s.value| ==> IsWhiteSpace(s.value[i])
  }
}

=== FILE: UriExtensions.dfy ===
/** URI matching against a configured base address and computation of the
    application-local path. A URI is taken apart as the platform already did
    it: scheme, host, port, whether that port is the scheme's default, the
    path segments (each but the last keeping its trailing '/'), the query,
    and its printed form. */
module UriExtensions {
  import opened Wrappers
  import opened Text
  import opened Numbers
  import opened Exceptions

  datatype Uri = Uri(
    scheme: string,
    host: string,
    port: nat,
    isDefaultPort: bool,
    segments: seq<string>,
    query: string,
    /** The printed form: what `UriBuilder` prints for a configured base,
        what `Uri.ToString` prints for a request URL. */
    text: string)

  /** Concatenation of a sequence of strings, in order. */
  function Join(parts: seq<string>): string
  {
    if |parts| == 0 then "" else parts[0] + Join(parts[1..])
  }

  lemma {:induction false} JoinAppend(a: seq<string>, b: seq<string>)
    ensures Join(a + b) == Join(a) + Join(b)
    decreases |a|
  {
    if |a| == 0 {
      assert a + b == b;
    } else {
      JoinAppend(a[1..], b);
      assert (a + b)[1..] == a[1..] + b;
    }
  }

  /** The path of a URI is its segments, concatenated. */
  function AbsolutePath(u: Uri): string
  {
    Join(u.segments)
  }

  predicate EndsWithSlash(s: string)
  {
    |s| > 0 && s[|s| - 1] == '/'
  }

  /** `s` without one trailing '/', if it has one. */
  function DropTrailingSlash(s: string): string
  {
    if EndsWithSlash(s) then s[..|s| - 1] else s
  }

  /** `s` made to end with '/' by appending one only when it is missing. */
  function AppendSlashIfNeeded(s: string): (r: string)
    ensures EndsWithSlash(r)
    ensures r == s || r == s + "/"
    ensures EndsWithSlash(s) ==> r == s
  {
    if EndsWithSlash(s) then s else s + "/"
  }

  /** Segments compare equal ignoring case, after each has been given a
      trailing slash. */
  predicate SegmentEquals(segment1: string, segment2: string)
  {
    EqualsIgnoreCase(AppendSlashIfNeeded(segment1), AppendSlashIfNeeded(segment2))
  }

  lemma AppendSlashSplits(s: string)
    ensures AppendSlashIfNeeded(s) == DropTrailingSlash(s) + "/"
  {
  }

  /** Segment equality is ignore-case equality once at most one trailing
      slash is removed from each side: so "App" equals "app/" but "app//"
      does not equal "app". */
  lemma SegmentEqualsIgnoresOneSlash(a: string, b: string)
    ensures SegmentEquals(a, b) <==> EqualsIgnoreCase(DropTrailingSlash(a), DropTrailingSlash(b))
  {
    var x, y := DropTrailingSlash(a), DropTrailingSlash(b);
    AppendSlashSplits(a);
    AppendSlashSplits(b);
    EqualsIgnoreCaseIffFold(x + "/", y + "/");
    EqualsIgnoreCaseIffFold(x, y);
    FoldConcat(x, "/");
    FoldConcat(y, "/");
    if Fold(x + "/") == Fold(y + "/") {
      assert Fold(x) == Fold(x + "/")[..|x|];
      assert Fold(y) == Fold(y + "/")[..|y|];
    }
  }

  lemma SegmentEqualsIsEquivalence(a: string, b: string, c: string)
    ensures SegmentEquals(a, a)
    ensures SegmentEquals(a, b) ==> SegmentEquals(b, a)
    ensures SegmentEquals(a, b) && SegmentEquals(b, c) ==> SegmentEquals(a, c)
  {
    var x, y, z := AppendSlashIfNeeded(a), AppendSlashIfNeeded(b), AppendSlashIfNeeded(c);
    EqualsIgnoreCaseIffFold(x, x);
    EqualsIgnoreCaseIffFold(x, y);
    EqualsIgnoreCaseIffFold(y, x);
    EqualsIgnoreCaseIffFold(y, z);
    EqualsIgnoreCaseIffFold(x, z);
  }

  lemma SegmentEqualsExample()
    ensures SegmentEquals("App", "app/")
  {
    assert AppendSlashIfNeeded("App") == "App/";
  }

  /** Only "" and "/" equal the empty segment. */
  lemma SegmentEqualsEmpty(s: string)
    ensures SegmentEquals(s, "") <==> s == "" || s == "/"
  {
    assert AppendSlashIfNeeded("") == "/";
    var t := AppendSlashIfNeeded(s);
    EqualsIgnoreCaseIffFold(t, "/");
    if SegmentEquals(s, "") {
      assert Fold(t) == Fold("/");
      assert |t| == 1;
      FoldCharIsSlash(t[0]);
      assert t == "/";
    }
  }

  /** The rest of a sequence, or the empty sequence once it is exhausted. */
  function Tail(s: seq<string>): seq<string>
  {
    if |s| == 0 then s else s[1..]
  }

  /** Position `i` of a sequence padded with "" beyond its end. */
  function Pad(s: seq<string>, i: nat): string
  {
    if i < |s| then s[i] else ""
  }

  function Max(a: nat, b: nat): nat
  {
    if a < b then b else a
  }

  /** Walks both sequences in lock step, padding the shorter with "", and
      fails at the first pair `comparison` rejects. */
  function ZipCompare(source1: seq<string>, source2: seq<string>, comparison: (string, string) -> bool): bool
    decreases |source1| + |source2|
  {
    if |source1| == 0 && |source2| == 0 then true
    else comparison(Pad(source1, 0), Pad(source2, 0)) && ZipCompare(Tail(source1), Tail(source2), comparison)
  }

  /** ZipCompare holds exactly when every padded position is accepted. */
  lemma {:induction false} ZipComparePositional(s1: seq<string>, s2: seq<string>, cmp: (string, string) -> bool)
    ensures ZipCompare(s1, s2, cmp) <==>
      forall i :: 0 <= i < Max(|s1|, |s2|) ==> cmp(Pad(s1, i), Pad(s2, i))
    decreases |s1| + |s2|
  {
    if |s1| == 0 && |s2| == 0 {
    } else {
      var n := Max(|s1|, |s2|);
      ZipComparePositional(Tail(s1), Tail(s2), cmp);
      assert Max(|Tail(s1)|, |Tail(s2)|) == n - 1;
      assert forall i :: 0 <= i < n - 1 ==> Pad(Tail(s1), i) == Pad(s1, i + 1) && Pad(Tail(s2), i) == Pad(s2, i + 1);
      if forall i :: 0 <= i < n ==> cmp(Pad(s1, i), Pad(s2, i)) {
        assert forall i :: 0 <= i < n - 1 ==> cmp(Pad(Tail(s1), i), Pad(Tail(s2), i)) by {
          forall i | 0 <= i < n - 1 ensures cmp(Pad(Tail(s1), i), Pad(Tail(s2), i)) {
            assert cmp(Pad(s1, i + 1), Pad(s2, i + 1));
          }
        }
      }
      if ZipCompare(s1, s2, cmp) {
        forall i | 0 <= i < n ensures cmp(Pad(s1, i), Pad(s2, i)) {
          if i > 0 {
            assert cmp(Pad(Tail(s1), i - 1), Pad(Tail(s2), i - 1));
          }
        }
      }
    }
  }

  /** Scheme, host and port agree ignoring case; when the base's host is
      exactly "localhost", only scheme and port are compared. */
  predicate AuthorityMatches(source: Uri, value: Uri)
  {
    && EqualsIgnoreCase(source.scheme, value.scheme)
    && source.port == value.port
    && (source.host == "localhost" || EqualsIgnoreCase(source.host, value.host))
  }

  /** The segment comparison used for matching: an empty base segment
      accepts anything. */
  predicate SegmentMatches(s1: string, s2: string)
  {
    |s1| == 0 || SegmentEquals(s1, s2)
  }

  /** `source.IsCaseInsensitiveBaseOf(value)`. */
  predicate IsCaseInsensitiveBaseOf(source: Uri, value: Uri)
  {
    AuthorityMatches(source, value) && ZipCompare(source.segments, value.segments, SegmentMatches)
  }

  /** How base segment `i` accepts the request: an empty base segment accepts
      anything; one opposite a request segment must equal it; one past the
      end of the request must be "/". */
  predicate AcceptsAt(base: seq<string>, value: seq<string>, i: nat)
    requires i < |base|
  {
    || base[i] == ""
    || (i < |value| && SegmentEquals(base[i], value[i]))
    || (i >= |value| && base[i] == "/")
  }

  /** The match in terms of the base's own segments alone: request segments
      beyond the base's length never matter. */
  lemma {:induction false} BaseOfBySegments(source: Uri, value: Uri)
    ensures IsCaseInsensitiveBaseOf(source, value) <==>
      AuthorityMatches(source, value) &&
      forall i :: 0 <= i < |source.segments| ==> AcceptsAt(source.segments, value.segments, i)
  {
    var b, v := source.segments, value.segments;
    ZipComparePositional(b, v, SegmentMatches);
    forall i | 0 <= i < Max(|b|, |v|)
      ensures SegmentMatches(Pad(b, i), Pad(v, i)) <==> (i >= |b| || AcceptsAt(b, v, i))
    {
      if i < |b| && i >= |v| {
        SegmentEqualsEmpty(b[i]);
      }
    }
    if forall i :: 0 <= i < |b| ==> AcceptsAt(b, v, i) {
      forall i | 0 <= i < Max(|b|, |v|) ensures SegmentMatches(Pad(b, i), Pad(v, i)) {
        if i < |b| {
          assert AcceptsAt(b, v, i);
        }
      }
    }
  }

  /** Request segments beyond the base's length are always accepted. */
  lemma LongerRequestStillMatches(source: Uri, value: Uri, extra: seq<string>)
    requires |value.segments| >= |source.segments|
    ensures IsCaseInsensitiveBaseOf(source, value) <==>
      IsCaseInsensitiveBaseOf(source, value.(segments := value.segments + extra))
  {
    var value' := value.(segments := value.segments + extra);
    BaseOfBySegments(source, value);
    BaseOfBySegments(source, value');
    forall i | 0 <= i < |source.segments|
      ensures AcceptsAt(source.segments, value.segments, i) <==> AcceptsAt(source.segments, value'.segments, i)
    {
      assert value'.segments[i] == value.segments[i];
    }
  }

  /** A base segment past the end of the request matches only if it is ""
      or "/". */
  lemma BaseSegmentBeyondRequest(source: Uri, value: Uri, i: nat)
    requires |value.segments| <= i < |source.segments|
    requires IsCaseInsensitiveBaseOf(source, value)
    ensures source.segments[i] == "" || source.segments[i] == "/"
  {
    BaseOfBySegments(source, value);
    assert AcceptsAt(source.segments, value.segments, i);
  }

  /** The first base segment that differs from the request rejects the
      match, whatever follows. */
  lemma UnequalSegmentRejects(source: Uri, value: Uri, i: nat)
    requires i < |source.segments| && i < |value.segments|
    requires source.segments[i] != "" && !SegmentEquals(source.segments[i], value.segments[i])
    ensures !IsCaseInsensitiveBaseOf(source, value)
  {
    BaseOfBySegments(source, value);
    assert !AcceptsAt(source.segments, value.segments, i);
  }

  /** Whatever the paths, a scheme, port or (unless the base is "localhost")
      host mismatch rejects. */
  lemma AuthorityMismatchRejects(source: Uri, value: Uri)
    requires !AuthorityMatches(source, value)
    ensures !IsCaseInsensitiveBaseOf(source, value)
  {
  }

  /** For a "localhost" base the request's host never affects the match. */
  lemma LocalhostIgnoresHost(source: Uri, value: Uri, host: string)
    requires source.host == "localhost"
    ensures IsCaseInsensitiveBaseOf(source, value) == IsCaseInsensitiveBaseOf(source, value.(host := host))
  {
  }

  /** Every URI is a base of itself. */
  lemma BaseOfItself(u: Uri)
    ensures IsCaseInsensitiveBaseOf(u, u)
  {
    EqualsIgnoreCaseReflexive(u.scheme);
    EqualsIgnoreCaseReflexive(u.host);
    BaseOfBySegments(u, u);
    forall i | 0 <= i < |u.segments| ensures AcceptsAt(u.segments, u.segments, i) {
      SegmentEqualsIsEquivalence(u.segments[i], u.segments[i], u.segments[i]);
    }
  }

  /** Walks both sequences in lock step, padding the shorter with null, and
      keeps every non-null value `selector` produces; an exception thrown by
      the selector ends the walk. */
  function ZipFill(
    source1: seq<string>,
    source2: seq<string>,
    selector: (Option<string>, Option<string>) -> Result<Option<string>, Exception>
  ): Result<seq<string>, Exception>
    decreases |source1| + |source2|
  {
    if |source1| == 0 && |source2| == 0 then Success([])
    else
      var value1 := if |source1| > 0 then Some(source1[0]) else None;
      var value2 := if |source2| > 0 then Some(source2[0]) else None;
      match selector(value1, value2)
      case Failure(e) => Failure(e)
      case Success(value) =>
        match ZipFill(Tail(source1), Tail(source2), selector)
        case Failure(e) => Failure(e)
        case Success(rest) => Success((if value.Some? then [value.value] else []) + rest)
  }

  /** The selector of `MakeAppLocalPath`: a full-URI segment equal to the
      base segment at its position is dropped, any other is kept. Comparing a
      base segment against the null padding dereferences null. */
  function LocalPathSelector(x: Option<string>, y: Option<string>): Result<Option<string>, Exception>
  {
    if x.None? then Success(y)
    else if y.None? then Failure(NullReference)
    else if SegmentEquals(x.value, y.value) then Success(None)
    else Success(y)
  }

  /** `appBaseUri.MakeAppLocalPath(fullUri)`. */
  function MakeAppLocalPath(appBaseUri: Uri, fullUri: Uri): Result<string, Exception>
  {
    match ZipFill(appBaseUri.segments, fullUri.segments, LocalPathSelector)
    case Failure(e) => Failure(e)
    case Success(parts) => Success("/" + Join(parts))
  }

  /** Full-URI segment `i` survives: it is past the base or differs from the
      base segment at the same position. */
  predicate IsKept(base: seq<string>, full: seq<string>, i: nat)
    requires i < |full|
  {
    i >= |base| || !SegmentEquals(base[i], full[i])
  }

  /** Which full-URI segments survive, position by position. */
  function KeptMask(base: seq<string>, full: seq<string>): (r: seq<bool>)
    ensures |r| == |full|
    ensures forall i :: 0 <= i < |full| ==> r[i] == IsKept(base, full, i)
  {
    seq(|full|, i requires 0 <= i < |full| => IsKept(base, full, i))
  }

  /** The elements among the first `n` of `s` whose mask bit is set, in order. */
  function Select(s: seq<string>, mask: seq<bool>, n: nat): seq<string>
    requires n <= |s| && |mask| == |s|
  {
    if n == 0 then [] else Select(s, mask, n - 1) + (if mask[n - 1] then [s[n - 1]] else [])
  }

  /** The surviving segments among the first `n` of `full`, in order. */
  function KeptSegments(base: seq<string>, full: seq<string>, n: nat): seq<string>
    requires n <= |full|
  {
    Select(full, KeptMask(base, full), n)
  }

  /** Selecting from a sequence is selecting its head, then from its tail. */
  lemma {:induction false} SelectShift(s: seq<string>, mask: seq<bool>, n: nat)
    requires n < |s| && |mask| == |s|
    ensures Select(s, mask, n + 1) == (if mask[0] then [s[0]] else []) + Select(s[1..], mask[1..], n)
  {
    var head := if mask[0] then [s[0]] else [];
    if n == 0 {
      assert Select(s, mask, 1) == Select(s, mask, 0) + head;
    } else {
      SelectShift(s, mask, n - 1);
      var piece := if mask[n] then [s[n]] else [];
      assert s[1..][n - 1] == s[n] && mask[1..][n - 1] == mask[n];
      assert Select(s[1..], mask[1..], n) == Select(s[1..], mask[1..], n - 1) + piece;
      assert Select(s, mask, n + 1) == Select(s, mask, n) + piece;
      assert Select(s, mask, n + 1) == head + Select(s[1..], mask[1..], n - 1) + piece;
    }
  }

  /** Nothing is selected from a prefix whose mask bits are all clear. */
  lemma {:induction false} SelectNoneBefore(s: seq<string>, mask: seq<bool>, n: nat)
    requires n <= |s| && |mask| == |s|
    requires forall i :: 0 <= i < n ==> !mask[i]
    ensures Select(s, mask, n) == []
    decreases n
  {
    if n > 0 {
      SelectNoneBefore(s, mask, n - 1);
      assert Select(s, mask, n) == Select(s, mask, n - 1) + [];
    }
  }

  /** Past a prefix of clear bits, with every later bit set, the selection is
      the rest of the sequence. */
  lemma {:induction false} SelectAfterPrefix(s: seq<string>, mask: seq<bool>, k: nat, n: nat)
    requires k <= n <= |s| && |mask| == |s|
    requires forall i :: 0 <= i < k ==> !mask[i]
    requires forall i :: k <= i < |s| ==> mask[i]
    ensures Select(s, mask, n) == s[k..n]
    decreases n
  {
    if n == k {
      SelectNoneBefore(s, mask, n);
    } else {
      SelectAfterPrefix(s, mask, k, n - 1);
      assert s[k..n] == s[k..n - 1] + [s[n - 1]];
    }
  }

  /** The mask of a base and a full URI, shifted by one position, is the mask
      of their tails. */
  lemma KeptMaskShift(base: seq<string>, full: seq<string>)
    requires 0 < |full|
    ensures KeptMask(base, full)[1..] == KeptMask(Tail(base), full[1..])
  {
    var m := KeptMask(base, full);
    var t := KeptMask(Tail(base), full[1..]);
    forall i | 0 <= i < |t|
      ensures m[1..][i] == t[i]
    {
      assert IsKept(base, full, i + 1) == IsKept(Tail(base), full[1..], i);
    }
  }

  lemma KeptSegmentsShift(base: seq<string>, full: seq<string>, n: nat)
    requires 0 < |full| && n < |full|
    ensures KeptSegments(base, full, n + 1) ==
      (if IsKept(base, full, 0) then [full[0]] else []) + KeptSegments(Tail(base), full[1..], n)
  {
    SelectShift(full, KeptMask(base, full), n);
    KeptMaskShift(base, full);
  }

  /** The selector keeps the first full-URI segment exactly when it survives. */
  lemma LocalPathSelectorAtHead(base: seq<string>, full: seq<string>)
    requires 0 < |full|
    ensures LocalPathSelector(if |base| > 0 then Some(base[0]) else None, Some(full[0])) ==
      Success(if IsKept(base, full, 0) then Some(full[0]) else None)
  {
  }

  /** One step of the walk over a non-empty full URI: the surviving head
      segment, if any, in front of what the rest of the walk keeps. */
  lemma ZipFillStep(base: seq<string>, full: seq<string>, rest: seq<string>)
    requires 0 < |full|
    requires ZipFill(Tail(base), full[1..], LocalPathSelector) == Success(rest)
    ensures ZipFill(base, full, LocalPathSelector) ==
      Success((if IsKept(base, full, 0) then [full[0]] else []) + rest)
  {
    LocalPathSelectorAtHead(base, full);
    assert Tail(full) == full[1..];
  }

  /** Walking the segments of a base no longer than the full URI never throws
      and keeps exactly the surviving segments. */
  lemma {:induction false} ZipFillKeepsSurvivors(base: seq<string>, full: seq<string>)
    requires |base| <= |full|
    ensures ZipFill(base, full, LocalPathSelector) == Success(KeptSegments(base, full, |full|))
    decreases |full|
  {
    if |full| > 0 {
      ZipFillKeepsSurvivors(Tail(base), full[1..]);
      ZipFillKeepsSurvivorsStep(base, full);
    }
  }

  /** The inductive step: if the walk over the tails keeps their surviving
      segments, the walk over the whole keeps the whole's. */
  lemma ZipFillKeepsSurvivorsStep(base: seq<string>, full: seq<string>)
    requires 0 < |full|
    requires ZipFill(Tail(base), full[1..], LocalPathSelector) == Success(KeptSegments(Tail(base), full[1..], |full| - 1))
    ensures ZipFill(base, full, LocalPathSelector) == Success(KeptSegments(base, full, |full|))
  {
    ZipFillStep(base, full, KeptSegments(Tail(base), full[1..], |full| - 1));
    KeptSegmentsShift(base, full, |full| - 1);
  }

  /** Walking the segments of a base longer than the full URI reaches the
      null padding and throws. */
  lemma {:induction false} ZipFillThrowsOnLongerBase(base: seq<string>, full: seq<string>)
    requires |base| > |full|
    ensures ZipFill(base, full, LocalPathSelector) == Failure(NullReference)
    decreases |full|
  {
    if |full| > 0 {
      ZipFillThrowsOnLongerBase(Tail(base), full[1..]);
    }
  }

  /** The local path is "/" followed by the surviving full-URI segments; it
      cannot be computed, by a null dereference, exactly when the base has
      more segments than the full URI. */
  lemma MakeAppLocalPathResult(appBaseUri: Uri, fullUri: Uri)
    ensures MakeAppLocalPath(appBaseUri, fullUri).Failure? <==> |appBaseUri.segments| > |fullUri.segments|
    ensures |appBaseUri.segments| > |fullUri.segments| ==> MakeAppLocalPath(appBaseUri, fullUri) == Failure(NullReference)
    ensures |appBaseUri.segments| <= |fullUri.segments| ==>
      MakeAppLocalPath(appBaseUri, fullUri) == Success("/" + Join(KeptSegments(appBaseUri.segments, fullUri.segments, |fullUri.segments|)))
  {
    if |appBaseUri.segments| > |fullUri.segments| {
      ZipFillThrowsOnLongerBase(appBaseUri.segments, fullUri.segments);
    } else {
      ZipFillKeepsSurvivors(appBaseUri.segments, fullUri.segments);
    }
  }

  /** When every base segment equals the full URI's segment at its
      position, the kept segments are exactly those past the base. */
  lemma KeptSegmentsAfterMatchedBase(base: seq<string>, full: seq<string>)
    requires |base| <= |full|
    requires forall i :: 0 <= i < |base| ==> SegmentEquals(base[i], full[i])
    ensures KeptSegments(base, full, |full|) == full[|base|..]
  {
    var mask := KeptMask(base, full);
    forall i | 0 <= i < |base|
      ensures !mask[i]
    {
    }
    assert forall i :: |base| <= i < |full| ==> mask[i];
    SelectAfterPrefix(full, mask, |base|, |full|);
  }

  /** When every base segment equals the full URI's segment at its position,
      the local path is the rest of the full URI's path. */
  lemma LocalPathStripsMatchedBase(appBaseUri: Uri, fullUri: Uri)
    requires |appBaseUri.segments| <= |fullUri.segments|
    requires forall i :: 0 <= i < |appBaseUri.segments| ==> SegmentEquals(appBaseUri.segments[i], fullUri.segments[i])
    ensures MakeAppLocalPath(appBaseUri, fullUri) ==
      Success("/" + Join(fullUri.segments[|appBaseUri.segments|..]))
  {
    MakeAppLocalPathResult(appBaseUri, fullUri);
    KeptSegmentsAfterMatchedBase(appBaseUri.segments, fullUri.segments);
  }

  /** Base "http://h/app/" and request "http://h/app/foo/bar" give "/foo/bar". */
  lemma LocalPathExample(appBaseUri: Uri, fullUri: Uri)
    requires appBaseUri.segments == ["/", "app/"]
    requires fullUri.segments == ["/", "app/", "foo/", "bar"]
    ensures MakeAppLocalPath(appBaseUri, fullUri) == Success("/foo/bar")
  {
    SegmentEqualsIsEquivalence("/", "/", "/");
    SegmentEqualsIsEquivalence("app/", "app/", "app/");
    assert forall i :: 0 <= i < 2 ==> SegmentEquals(appBaseUri.segments[i], fullUri.segments[i]);
    LocalPathStripsMatchedBase(appBaseUri, fullUri);
    assert fullUri.segments[2..] == ["foo/", "bar"];
    assert Join(["bar"]) == "bar";
    assert Join(["foo/", "bar"]) == "foo/" + Join(["bar"]);
    assert MakeAppLocalPath(appBaseUri, fullUri) == Success("/" + Join(["foo/", "bar"]));
    assert "/" + ("foo/" + "bar") == "/foo/bar";
  }

  /** The authority-only URI of a request: its scheme, host and port, with
      the root path. */
  function AuthorityUri(u: Uri): (r: Uri)
    ensures r.segments == ["/"] && r.query == ""
    ensures r.scheme == u.scheme && r.host == u.host && r.port == u.port && r.isDefaultPort == u.isDefaultPort
  {
    var port := if u.isDefaultPort then "" else ":" + NatToString(u.port);
    Uri(u.scheme, u.host, u.port, u.isDefaultPort, ["/"], "", u.scheme + "://" + u.host + port + "/")
  }

  /** A request whose path starts at the root is matched by its own
      authority, and its local path against it is its whole path. */
  lemma AuthorityUriMatches(u: Uri)
    requires |u.segments| > 0 && u.segments[0] == "/"
    ensures IsCaseInsensitiveBaseOf(AuthorityUri(u), u)
    ensures MakeAppLocalPath(AuthorityUri(u), u) == Success(AbsolutePath(u))
  {
    var a := AuthorityUri(u);
    EqualsIgnoreCaseReflexive(u.scheme);
    EqualsIgnoreCaseReflexive(u.host);
    SegmentEqualsIsEquivalence("/", "/", "/");
    BaseOfBySegments(a, u);
    assert AcceptsAt(a.segments, u.segments, 0);
    LocalPathStripsMatchedBase(a, u);
    assert u.segments == [u.segments[0]] + u.segments[1..];
  }
}

=== FILE: UrlReservations.dfy ===
/** Configuration of automatic URL reservation creation and its defaults. */
module UrlReservations {
  import opened Wrappers

  const EveryoneAccountName: string := "Everyone"

  /** What translating the well-known "world" SID to an account name did. */
  datatype AccountLookup = Translated(name: string) | NoAccount | LookupThrew

  /** `user` is `None` when the configured user is null. */
  datatype UrlReservations = UrlReservations(createAutomatically: bool, user: Option<string>)

  /** The localized name of the "everyone" account, falling back to the
      literal name on Unix, when translation yields no account, and when the
      lookup throws. */
  function GetEveryoneAccountName(isUnix: bool, lookup: AccountLookup): (r: string)
    ensures !isUnix && lookup.Translated? ==> r == lookup.name
    ensures isUnix || !lookup.Translated? ==> r == EveryoneAccountName
  {
    if !isUnix then
      match lookup
      case Translated(name) => name
      case NoAccount => EveryoneAccountName
      case LookupThrew => EveryoneAccountName
    else EveryoneAccountName
  }

  /** The constructor: no automatic creation, reservations for everyone. */
  function Default(isUnix: bool, lookup: AccountLookup): (r: UrlReservations)
    ensures !r.createAutomatically
    ensures r.user.Some?
    ensures r.user.value == EveryoneAccountName || (!isUnix && lookup == Translated(r.user.value))
  {
    UrlReservations(false, Some(GetEveryoneAccountName(isUnix, lookup)))
  }
}

=== FILE: Wrappers.dfy ===
/** Failure-carrying wrappers: `Option` stands for a nullable reference and
    `Result` for a computation that may throw. */
module Wrappers {

  /** `None` plays the part of `null`. */
  datatype Option<+T> = None | Some(value: T)
  {
    function GetOr(default: T): T
    {
      match this
      case Some(v) => v
      case None => default
    }
  }

  /** `Failure` plays the part of a thrown exception. */
  datatype Result<+T, +E> = Success(value: T) | Failure(error: E)
}
